=== FILE: README.md ===
# Spend-vision client logic in Dafny

This project models the logic of a small React client for an expense
tracker. The client is a thin layer over a REST backend. Each piece of its
behaviour is deterministic once the backend's answers are known, so each
becomes an immutable record plus pure transition functions. Backend
answers, storage contents, the current date and the system colour
preference are inputs.

The model covers:

- **Request layer** (`Api`, over `Js` and `Text`). Headers are built from
  the stored token. A response is classified as 204, ok or failed. Every
  failure raises one error toast and is rethrown. Login has its own
  form-encoded call that raises no toast. The module also builds each
  operation's path, including the optional date query of the two summary
  calls.
- **Session provider** (`Auth`). It restores the user from two storage
  keys. Login writes both keys, register never touches the session, and
  logout removes both keys. The page handlers (`AuthPages`) check the
  fields and swallow whatever the provider throws.
- **Recent-expenses table** (`ExpenseList`). It builds the id-to-name map,
  joins expenses to names with an `"Unknown"` fallback, sorts newest
  first, and drops rows by id after a delete.
  - The sort is modelled as a stable insertion sort. `Array.prototype.sort`
    is stable, so rows on the same day keep their fetched order, and this
    is proved.
- **Create forms** (`EntryForm`, shared by `ExpenseForm` and `IncomeForm`).
  They check required fields and the trimmed category name, append and
  select a new category, and reset after a successful submit. The expense
  form also creates its four default categories in order.
- **Charts** (`Calendar`, `SummaryChart`, `PieChart`). Both request a
  six-month window. The summary chart's placeholder is six zero months,
  oldest first. The pie's placeholder is one slice, and its palette cycles
  with period ten.
- **Theme provider** (`Theme`). It reads the initial theme and colour
  scheme, flips them with the two toggles, and mirrors them into the root
  classes and storage.

Dates in the table and the forms are day numbers. In the charts they are
calendar dates, because `subMonths` clamps the day of the month.

In the charts, date-fns' `format(…)` calls, `new Date(text)` and the form
encoding of `URLSearchParams` are function parameters (`monthLabel`,
`isoDate`, `parse`, `encode`). `parse` gives `None` for a date `new Date`
cannot read, on which `format` throws. The properties hold whatever values
those functions return. The forms' `format(date, "yyyy-MM-dd")` is not a
parameter: the draft carries the picked day number.

The session is exactly what `useAuth.tsx` does with the token: it stores
it and removes it. The code decodes no token, sets no expiry timer and
shows no "session expired" notice, so the model has none of these either.

## Model

| member | source | states |
|---|---|---|
| Text.TrimStart | src/components/ExpenseForm.tsx:103 | the result is a suffix of the input; everything dropped is whitespace; the first kept character is not whitespace |
| Text.TrimEnd | src/components/ExpenseForm.tsx:103 | the result is a prefix of the input; everything dropped is whitespace; the last kept character is not whitespace |
| Text.TrimEmptyIffBlank | src/components/ExpenseForm.tsx:103 | `name.trim()` is empty exactly when every character of the name is ECMAScript whitespace |
| Text.NatToString | src/components/ExpenseForm.tsx:87 | `toString()` of a non-negative id is a non-empty run of decimal digits |
| Text.NatToStringCanonical | src/components/ExpenseForm.tsx:87 | `toString()` writes no leading zero: the digits start with 0 exactly for 0 |
| Text.IntToString | src/components/ExpenseForm.tsx:112 | `toString()` of an id is non-empty, starts with `-` exactly when the id is negative, and is digits otherwise |
| Text.ParseIntOfIntToString | src/components/ExpenseForm.tsx:136 | `parseInt(id.toString())` gives back the id, so the selected category id survives the string-valued select |
| Text.ParseIntWithoutDigits | src/components/ExpenseForm.tsx:136 | `parseInt` of a string with no digit is NaN, modelled as no id |
| Api.BuildHeaders | src/lib/api.ts:52-56 | Content-Type is always present and is JSON unless the caller sets it; Authorization is present iff a truthy token is held or the caller sets it, and is `Bearer <token>` when only the token supplies it; every caller header wins; no other keys appear |
| Api.BearerIffToken | src/lib/api.ts:50-54 | with no caller Authorization header, the bearer header is present iff storage holds a non-empty `token`, and its value is exactly `"Bearer " + token` |
| Api.ApiCall | src/lib/api.ts:46-81 | URL is the base plus the endpoint; 204 resolves to null whatever the body; another non-ok status fails with `detail`, or "Something went wrong" when that is empty; an ok status resolves to the parsed body; a parse or transport failure is rethrown as it is; a failure raises exactly one error toast carrying its message, and a success raises none |
| Api.NoContentIgnoresBody | src/lib/api.ts:65-67 | two 204 replies that differ only in their bodies produce the same call: the body is never read |
| Api.LoginRequest | src/lib/api.ts:91-109 | posts to `/token` with only the form content type and the fields `username` then `password`; a non-ok reply fails with `detail` or "Login failed"; an ok reply gives the token response; no toast is raised in this layer |
| Api.DateRangeQuery | src/lib/api.ts:176-185 | the query is empty exactly when neither date is truthy |
| Api.DateRangeQueryShapes | src/lib/api.ts:178-182 | with both dates, the query is `?start_date=…&end_date=…`, start first; with one date, only that parameter appears |
| Api.SummaryPathsWithoutDates | src/lib/api.ts:176-185 | without truthy dates, each summary call requests its bare path, with no `?` |
| Api.SummaryQueriesAgree | src/lib/api.ts:172-202 | for the same dates, the two summary calls append the same suffix to their paths |
| Api.MethodOf | src/lib/api.ts:84-169 | DELETE exactly for the two deletes, POST exactly for register and the four creates, GET otherwise |
| Api.PayloadOf | src/lib/api.ts:84-169 | register sends the credentials, a category create sends `{ name }`, a record create sends the record |
| Api.BodyOnlyOnPost | src/lib/api.ts:84-169 | a call sends a body exactly when it is a POST |
| Api.CreatesPostToTheirCollection | src/lib/api.ts:116-169 | each create posts its record or name to its collection's path; each delete is a DELETE with no body |
| Api.Endpoint | src/lib/api.ts:84-202 | every call's path is absolute; the paths themselves are pinned by Api.DeletePathNamesId, Api.CreatesPostToTheirCollection, Api.SummaryPathsWithoutDates and Api.SummaryQueriesAgree |
| Api.Perform | src/lib/api.ts:46-81 | an exported call goes to the base URL plus its path, with no caller headers: only the JSON content type and a bearer header exactly when a non-empty token is stored; a failure raises one error toast carrying its message, a success none |
| Api.DeletePathNamesId | src/lib/api.ts:135-139 | `/expenses/<id>` and `/income/<id>` start with their collection prefix, and the segment after it parses back to the id |
| Auth.Initial | src/hooks/useAuth.tsx:19-20 | the provider starts loading, with no user |
| Auth.Restore | src/hooks/useAuth.tsx:24-33 | the user becomes the stored username iff both keys are truthy, and is kept otherwise; loading ends; storage is only read |
| Auth.MountAuthenticatesIffBothKeys | src/hooks/useAuth.tsx:24-33 | after mounting, `isAuthenticated` (`!!user`) holds iff both `token` and `username` are stored and non-empty, and the user is then the stored username |
| Auth.Login | src/hooks/useAuth.tsx:35-50 | on success both keys are written (`token` from `access_token`) and the user is set, with the success toast; on failure storage and user are unchanged, one error toast is raised and the same error is rethrown; loading ends on both paths |
| Auth.Register | src/hooks/useAuth.tsx:52-64 | user and storage are never changed and loading ends; a success gives the success toast; a failure gives the request layer's toast, then the register toast, and rethrows the request's error |
| Auth.Logout | src/hooks/useAuth.tsx:66-72 | removes exactly the two keys and clears the user from any state; loading is untouched; one success toast |
| Auth.LogoutIdempotent | src/hooks/useAuth.tsx:66-69 | logging out twice leaves the session as logging out once |
| Auth.LoginSurvivesReload | src/hooks/useAuth.tsx:38-41 | after a successful login, a reload authenticates iff the issued token and the username are non-empty, and then as that username |
| Auth.LogoutSurvivesNoReload | src/hooks/useAuth.tsx:67-68 | after logout, a reload never authenticates |
| Auth.LoginThenCallCarriesToken | src/hooks/useAuth.tsx:38-41 | after a successful login the next call carries `Bearer <issued token>` iff that token is non-empty |
| Auth.LogoutThenCallCarriesNoToken | src/hooks/useAuth.tsx:66-69 | after logout no call carries a bearer header, unless the caller sets one |
| AuthPages.LoginDecision | src/pages/Login.tsx:18-24 | the provider is called iff both fields are non-empty, with the fields exactly as typed; otherwise "Please fill in all fields" |
| AuthPages.SignUpDecision | src/pages/SignUp.tsx:19-30 | register is called iff all three fields are non-empty and the passwords match; any empty field gives "Please fill in all fields", even when the passwords also differ; otherwise a mismatch gives "Passwords do not match" |
| AuthPages.SubmitLogin | src/pages/Login.tsx:15-29 | a rejected form raises only the validation toast and keeps the session; otherwise the page ends in the provider's state and toasts, with no failure escaping |
| AuthPages.SubmitSignUp | src/pages/SignUp.tsx:16-35 | same shape as login; user and storage are never changed |
| AuthPages.EmptyLoginFieldCallsNothing | src/pages/Login.tsx:18-21 | with an empty username or password the session is exactly as before |
| AuthPages.FailedLoginIsSwallowed | src/pages/Login.tsx:23-28 | a failed login leaves the page with its earlier session, only loading cleared |
| ExpenseList.Initial | src/components/ExpenseList.tsx:53-56 | no rows, an empty name map, loading, no pending delete |
| ExpenseList.CategoryNames | src/components/ExpenseList.tsx:64-67 | the map's keys are exactly the ids of the fetched categories |
| ExpenseList.CategoryNamesLastWins | src/components/ExpenseList.tsx:64-67 | each id maps to the name of the last category in the list carrying it |
| ExpenseList.CategoryLabel | src/components/ExpenseList.tsx:79 | the mapped name when it is present and non-empty, else "Unknown"; never empty |
| ExpenseList.JoinRows | src/components/ExpenseList.tsx:74-80 | one row per expense, in order, keeping id, amount, description and date, labelled with its category |
| ExpenseList.SortNewestFirst | src/components/ExpenseList.tsx:83-85 | the sorted rows are a permutation of the input, ordered by non-increasing date |
| ExpenseList.SortIsStable | src/components/ExpenseList.tsx:83-85 | for any day, the rows of that day appear in the sorted table in their input order |
| ExpenseList.SortIsStableEveryDay | src/components/ExpenseList.tsx:83-85 | stability for all days at once |
| ExpenseList.WithoutId | src/components/ExpenseList.tsx:102 | no kept row has the deleted id, and every kept row comes from the table |
| ExpenseList.WithoutIdCounts | src/components/ExpenseList.tsx:102 | every copy of a row with that id is removed, and every copy of every other row is kept |
| ExpenseList.WithoutIdAppend | src/components/ExpenseList.tsx:102 | the filter works piecewise on a split table, so kept rows keep their relative order |
| ExpenseList.WithoutIdIdempotent | src/components/ExpenseList.tsx:102 | deleting the same id twice is deleting it once |
| ExpenseList.WithoutIdKeepsNewestFirst | src/components/ExpenseList.tsx:102 | a newest-first table stays newest first after the filter |
| ExpenseList.Fetch | src/components/ExpenseList.tsx:58-97 | loading ends; the name map is replaced whenever the categories arrive, even if the expenses then fail; when both arrive the rows are the joined expenses, newest first and stable per day, with no toast; when either fails the rows are kept and "Failed to load expenses" is raised |
| ExpenseList.AskDelete | src/components/ExpenseList.tsx:163 | the trash button marks that expense as pending; rows, names and loading are unchanged |
| ExpenseList.CancelDelete | src/components/ExpenseList.tsx:158 | closing the dialog clears the pending expense; rows, names and loading are unchanged |
| ExpenseList.AskThenCancelRestores | src/components/ExpenseList.tsx:158-163 | opening and then closing the dialog restores a table that had no pending delete |
| ExpenseList.AskThenDeleteForgetsDialog | src/components/ExpenseList.tsx:98-108 | asking first and then deleting ends exactly as the delete alone, since the handler clears the pending id |
| ExpenseList.Delete | src/components/ExpenseList.tsx:99-109 | a success filters the id out with "Expense deleted successfully"; a failure keeps the rows with "Failed to delete expense"; the pending id is cleared on both paths |
| ExpenseList.DeleteKeepsNewestFirst | src/components/ExpenseList.tsx:99-109 | any delete outcome keeps a newest-first table newest first |
| EntryForm.Initial | src/components/ExpenseForm.tsx:46-55 | empty fields, including the new category's name, today's date, no categories, not loading, dialog closed |
| EntryForm.AddCategory | src/components/ExpenseForm.tsx:98-121 | a blank trimmed name raises "Category name cannot be empty" and sends nothing; otherwise the untrimmed name is sent; a success appends the category after the existing ones, selects exactly `id.toString()` (which `parseInt` reads back as the id), clears the name, closes the dialog and toasts, leaving every other field as it was; a failure only clears loading |
| EntryForm.BlankNameSendsNothing | src/components/ExpenseForm.tsx:103-106 | a name made only of whitespace sends no request and leaves the form unchanged |
| EntryForm.Submit | src/components/ExpenseForm.tsx:123-153 | a missing amount, category or date raises "Please fill in all required fields" and sends nothing; otherwise the draft carries the typed amount, the description, `parseInt` of the category and the date; a success clears amount, description and category and resets the date to today, leaving the category dialog fields as they were, then toasts and notifies; a failure only clears loading |
| EntryForm.AddedCategoryIsSubmitted | src/components/ExpenseForm.tsx:110-136 | a category just added is the id the next submit sends |
| EntryForm.SubmitClearsForm | src/components/ExpenseForm.tsx:126-143 | after a successful submit, a second submit sends nothing |
| ExpenseForm.Initial | src/components/ExpenseForm.tsx:45-55 | the shared initial form, not initialising defaults |
| ExpenseForm.CreateInOrder | src/components/ExpenseForm.tsx:80-83 | names are sent as a prefix of the list, in order; on success all are sent and the k-th created category is the k-th answer; on failure the last name sent got the error and every earlier one succeeded |
| ExpenseForm.CreateInOrderFailsIffSomeFails | src/components/ExpenseForm.tsx:80-83 | the loop completes iff every request succeeds |
| ExpenseForm.CreateDefaults | src/components/ExpenseForm.tsx:77-96 | requests the defaults in declared order, stopping at the first failed request (the last one sent failed, every earlier one succeeded); on success only the list, now the created categories, and the selection, exactly the first one's `id.toString()`, change, and the success toast is raised; on failure the form is unchanged; the flag is reset on both paths |
| ExpenseForm.FetchCategories | src/components/ExpenseForm.tsx:62-75 | a failed fetch changes nothing; a non-empty list is stored; an empty list, when not already initialising, runs the default creation |
| ExpenseForm.EmptyListSeedsDefaults | src/components/ExpenseForm.tsx:64-90 | an empty fetch whose default creations all succeed ends with the four created categories in order, the first selected |
| ExpenseForm.FailedDefaultKeepsEmptyList | src/components/ExpenseForm.tsx:65-94 | if any default creation fails, the list stays empty and the flag is reset |
| ExpenseForm.AddCategory | src/components/ExpenseForm.tsx:98-121 | the shared add step; its only toasts are the empty-name error or "Category added successfully" |
| ExpenseForm.AddCategoryCall | src/components/ExpenseForm.tsx:98-110 | a call is made exactly when the trimmed name is non-empty, and it is `createCategory`, a POST of the name as typed |
| ExpenseForm.SubmitCall | src/components/ExpenseForm.tsx:123-138 | a call is made exactly when the required fields are present, and it is `createExpense`, a POST of the typed amount, the description, `parseInt` of the category and the date |
| ExpenseForm.Submit | src/components/ExpenseForm.tsx:123-153 | the shared submit step; its only toasts are the required-fields error or "Expense added successfully" |
| IncomeForm.FetchCategories | src/components/IncomeForm.tsx:52-59 | the fetched list replaces the held one as it is, and nothing else changes; a failure changes nothing |
| IncomeForm.EmptyFetchSeedsNothing | src/components/IncomeForm.tsx:54-55 | an empty fetched list stays empty: no defaults |
| IncomeForm.AddCategory | src/components/IncomeForm.tsx:61-80 | the shared add step; its only toasts are the empty-name error or "Income category added successfully" |
| IncomeForm.AddCategoryCall | src/components/IncomeForm.tsx:61-69 | a call is made exactly when the trimmed name is non-empty, and it is `createIncomeCategory`, a POST of the name as typed |
| IncomeForm.SubmitCall | src/components/IncomeForm.tsx:82-97 | a call is made exactly when the required fields are present, and it is `createIncome`, a POST of the same record the expense form sends |
| IncomeForm.Submit | src/components/IncomeForm.tsx:82-112 | the shared submit step; its only toasts are the required-fields error or "Income added successfully" |
| IncomeForm.FormsDifferOnlyInMessages | src/components/IncomeForm.tsx:82-112 | from the same fields and answer, the income and expense submits send the same record, reach the same form, notify alike and raise as many toasts |
| Calendar.SubMonths | src/components/ExpenseChart.tsx:44 | the result is a valid date exactly n months earlier, with the same day clamped to the length of its month |
| Calendar.SubMonthsZero | src/components/ExpenseChart.tsx:71 | going back zero months is the identity |
| Calendar.SixMonthWindow | src/components/ExpenseChart.tsx:43-44 | the window ends today and starts on a valid date five months earlier, no later in its month than today |
| SummaryChart.Initial | src/components/ExpenseChart.tsx:34-35 | no data, loading |
| SummaryChart.Placeholder | src/components/ExpenseChart.tsx:67-77 | six entries, all totals zero |
| SummaryChart.PlaceholderMonthsConsecutive | src/components/ExpenseChart.tsx:43-72 | entry i is 5 − i months back; consecutive entries are consecutive months, ascending; the last is the current date; the request window starts on the first placeholder month and ends on the last |
| SummaryChart.BuildPlaceholder | src/components/ExpenseChart.tsx:70-77 | the `unshift` loop yields the placeholder sequence, the month i back at position 5 − i |
| SummaryChart.ApplyPlaceholder | src/components/ExpenseChart.tsx:65-81 | installs the placeholder only when not loading and empty, otherwise changes nothing; once loading has ended the data is non-empty |
| SummaryChart.ApplyPlaceholderIdempotent | src/components/ExpenseChart.tsx:66 | running the effect again does not regenerate the placeholder |
| SummaryChart.Request | src/components/ExpenseChart.tsx:43-45 | requests the summary from five months back up to today |
| SummaryChart.RequestPathNamesBothDates | src/components/ExpenseChart.tsx:43-45 | with non-empty formatted dates, the path names the start date, then the end date |
| SummaryChart.FormatBuckets | src/components/ExpenseChart.tsx:48-51 | the map completes exactly when every bucket date plus "-01" can be read; then there is one point per bucket, in order, labelled with the month label of that date, with the totals kept |
| SummaryChart.Fetch | src/components/ExpenseChart.tsx:38-62 | loading ends; an answer whose every bucket date can be read replaces the data with the formatted buckets; a failed request, or an answer with an unreadable bucket date, on which `format` throws, keeps the data |
| SummaryChart.EmptyAnswerShowsPlaceholder | src/components/ExpenseChart.tsx:48-81 | an empty answer ends as the six-month zero placeholder |
| SummaryChart.UnreadableBucketShowsPlaceholder | src/components/ExpenseChart.tsx:48-81 | on a chart still empty, an answer with one unreadable bucket date leaves the placeholder showing rather than the answer |
| PieChart.Initial | src/components/ExpenseCategoryPieChart.tsx:42-43 | no data, loading |
| PieChart.ColorsDistinct | src/components/ExpenseCategoryPieChart.tsx:28-39 | the palette holds ten pairwise different colours |
| PieChart.ApplyPlaceholder | src/components/ExpenseCategoryPieChart.tsx:67-74 | when not loading and empty, the data becomes exactly one "No expenses" entry of weight 1; otherwise it is unchanged |
| PieChart.ApplyPlaceholderIdempotent | src/components/ExpenseCategoryPieChart.tsx:68 | running the effect again changes nothing |
| PieChart.Slices | src/components/ExpenseCategoryPieChart.tsx:77-81 | same length and order as the data; name and value copied; entry i gets colour i mod 10 |
| PieChart.SliceColorsCycle | src/components/ExpenseCategoryPieChart.tsx:80 | entries ten apart share a colour; entries fewer than ten apart never do |
| PieChart.Fetch | src/components/ExpenseCategoryPieChart.tsx:46-64 | loading ends; an answer is stored as it is; a failure keeps the data |
| PieChart.Request | src/components/ExpenseCategoryPieChart.tsx:51-53 | requests the by-category totals from five months back up to today |
| PieChart.EmptyAnswerShowsPlaceholder | src/components/ExpenseCategoryPieChart.tsx:67-81 | an empty answer ends as the single placeholder slice in the first colour |
| Theme.InitialTheme | src/hooks/useTheme.tsx:17-24 | the saved theme when non-empty; else "dark" iff the system prefers dark, otherwise "light" |
| Theme.InitialColorScheme | src/hooks/useTheme.tsx:26-29 | the saved colour scheme when non-empty, else "blue" |
| Theme.ToggleTheme | src/hooks/useTheme.tsx:51-53 | light becomes dark and anything else becomes light; the colour scheme is unchanged |
| Theme.ToggleColorScheme | src/hooks/useTheme.tsx:55-57 | blue becomes black and anything else becomes blue; the theme is unchanged |
| Theme.TogglesAreInvolutions | src/hooks/useTheme.tsx:51-57 | on the known values each toggle undone by itself restores the state, and the known values stay known |
| Theme.ToggleNormalisesUnknown | src/hooks/useTheme.tsx:51-53 | an unrecognised saved theme becomes light on the first toggle and dark on the second |
| Theme.Sync | src/hooks/useTheme.tsx:31-49 | afterwards the root has `dark` iff the theme is dark and `black-theme` iff the scheme is black, and storage holds both values; no other class or key changes |
| Theme.SyncIdempotent | src/hooks/useTheme.tsx:31-49 | running the effect twice is running it once |
| Theme.SyncThenReloadRestores | src/hooks/useTheme.tsx:47-48 | reading back what the effect stored gives the same state, whatever the system prefers |
| Theme.ReachableStatesNonEmpty | src/hooks/useTheme.tsx:17-29 | initial and toggled values are never empty, so the reload property applies to them |

## Left out

- Network and browser storage. Each HTTP exchange is an input: a transport failure, or a status with a parsed body or a parse error. Storage is a map from strings to strings.
- Navigation (`navigate`, `Link`) and the `console.error` calls in the components' and pages' catch blocks. They affect no modelled state.
- React scheduling. Effects are not interleaved, concurrent fetches are not modelled, and the transient `isLoading := true` before each await is not modelled: only the state after a handler settles is.
- The delete handler's stale `expenses` closure, and the stale `initializingDefaultCategories` closure in the expense form. The model filters and checks the state it is given.
- ExpenseList.Fetch: takes the two fetches' outcomes as results, so the request layer's own error toasts are not among its toasts. The same holds for the forms and charts. Only `Auth.Register` composes the request layer's toast with its own.
- ExpenseList.Delete: takes the delete request's outcome as a completion, so the request layer's error toast, raised before "Failed to delete expense", is not among its toasts.
- Floating point: `parseFloat` of the amount (kept as the typed string), `toFixed(2)`, amounts and totals (opaque `real` values), and the pie label geometry.
- Date formatting and parsing (`format`, `parseISO`, `new Date(text)`, including the time-zone effect of `new Date("yyyy-MM-01")`) and the `URLSearchParams` percent-encoding. In the charts these are function parameters; the forms send the picked day number instead of `format(date, "yyyy-MM-dd")`. The sort compares day numbers instead of parsed `Date` values.
- `JSON.stringify` of request bodies. A call is described by its operation, method and payload record.
- `detail` fields that are not strings, and a JSON `null` body, are not modelled: `detail` is a string, "" standing for absent.
- Header names are compared exactly. `fetch`'s case-insensitive merging of header names is not modelled.
- `parseInt` is modelled for decimal input. Its `0x` prefix handling is not, and ids are never written that way.
- The calendar's future-date restriction (`src/components/ExpenseForm.tsx:289`), the mobile layout flag, Recharts and the UI components.
- src/pages/Dashboard.tsx, src/pages/Index.tsx and src/components/ThemeToggle.tsx. They are layout and routing; their only logic is a refresh counter and a redirect guard.
- Token expiry, a scheduled forced logout and a "session expired" notice. The code has none of them.
- Text.NatToString: ids are unbounded integers. JavaScript numbers of 1e21 and above are written in exponent form (`"1e+21"`), so the digits-only claim holds for ids below 1e21.
- Text.IntToString: the same. The claim holds for ids whose magnitude is below 1e21.
- Text.ParseIntOfIntToString: the round trip holds for ids whose magnitude is below 1e21. Above that, `parseInt("1e+21")` is 1.
- Api.DeletePathNamesId: the id is read back from the path only for ids whose magnitude is below 1e21, for the same reason.
- EntryForm.AddedCategoryIsSubmitted: it rests on the same round trip, so it holds for ids whose magnitude is below 1e21.
- Ids, counts and lengths are never rounded to 53-bit floating point; the model treats them as exact integers.

=== FILE: api.dfy ===
/** The request layer of the client: every backend call goes through
    `ApiCall`, which builds the headers from the stored token, classifies the
    response, and reports each failure with one toast before rethrowing it.
    Login has its own form-encoded path that reports nothing. The network is
    an input: one `Exchange` describes what the backend (or the transport)
    answered. */
module Api {
  import opened Js
  import Text

  const BaseUrl := "http://localhost:8000"
  const JsonContentType := "application/json"
  const FormContentType := "application/x-www-form-urlencoded"
  /** The message of a failed response whose body names no `detail`. */
  const GenericFailure := "Something went wrong"
  /** The message of a failed login whose body names no `detail`. */
  const LoginFailure := "Login failed"

  // ---------------------------------------------------------------------
  // Records exchanged with the backend

  datatype User = User(id: int, username: string)
  datatype Category = Category(id: int, name: string)
  /** An expense record; amounts are JavaScript numbers, kept opaque, and
      dates are day numbers. */
  datatype Expense = Expense(id: int, amount: real, description: string, date: int, categoryId: int)
  /** Income records have the same shape as expense records. */
  type Income = Expense
  /** What the create forms send: the amount as typed, the category id as
      `parseInt` read it (`None` for NaN) and the chosen day. */
  datatype Draft = Draft(amount: string, description: string, categoryId: Option<int>, date: int)
  datatype TokenResponse = TokenResponse(accessToken: string, tokenType: string)

  // ---------------------------------------------------------------------
  // Headers

  /** Header names to values; a later spread replaces an earlier key. */
  type Headers = map<string, string>

  /** The headers of a call: JSON content type, then the bearer header when
      a token is held, then the caller's own headers, each layer replacing
      the keys of the one before. */
  function BuildHeaders(token: Option<string>, callerHeaders: Headers): (h: Headers)
    ensures "Content-Type" in h
    ensures "Content-Type" !in callerHeaders ==> h["Content-Type"] == JsonContentType
    ensures "Authorization" in h <==> Truthy(token) || "Authorization" in callerHeaders
    ensures "Authorization" !in callerHeaders && Truthy(token) ==>
              h["Authorization"] == "Bearer " + token.value
    ensures forall k :: k in callerHeaders ==> k in h && h[k] == callerHeaders[k]
    ensures forall k :: k in h ==> k in callerHeaders || k == "Content-Type" || k == "Authorization"
  {
    var defaults := map["Content-Type" := JsonContentType];
    var bearer := if Truthy(token) then map["Authorization" := "Bearer " + token.value] else map[];
    defaults + bearer + callerHeaders
  }

  /** The headers `api` sends: built from the token in storage, read anew
      on every call. */
  function RequestHeaders(storage: Storage, callerHeaders: Headers): Headers
  {
    BuildHeaders(GetItem(storage, "token"), callerHeaders)
  }

  // ---------------------------------------------------------------------
  // Responses

  /** A response body once `response.json()` has run: the parsed value with
      its `detail` field as a string ("" when absent or falsy), or the error
      the parser threw. */
  datatype Body<T> = Json(value: T, detail: string) | NotJson(parseError: Thrown)

  /** What one request produced: the transport rejected, or a status and a
      body. */
  datatype Exchange<T> = TransportFailure(error: Thrown) | Reply(status: int, body: Body<T>)

  /** The value a successful call resolves with: `null` for 204, or the
      parsed body. */
  datatype Answer<T> = NoContent | Content(value: T)

  /** `response.ok`: a status in the 2xx range. */
  predicate IsOk(status: int)
  {
    200 <= status <= 299
  }

  /** One call of `api`: the headers it sent, how its promise settled and
      the toasts it raised. */
  datatype Call<T> = Call(url: string, headers: Headers, result: Result<Answer<T>, Thrown>, toasts: seq<Toast>)

  /** The try block of `api`: how the response is classified before the
      catch block sees a failure. */
  function Classify<T>(x: Exchange<T>): Result<Answer<T>, Thrown>
  {
    match x
    case TransportFailure(e) => Err(e)
    case Reply(status, body) =>
      if status == 204 then Ok(NoContent)
      else match body
        case NotJson(e) => Err(e)
        case Json(v, detail) =>
          if !IsOk(status) then Err(ErrorObject(OrElse(detail, GenericFailure)))
          else Ok(Content(v))
  }

  /** `api(endpoint, {headers})`: the generic authenticated call. */
  function ApiCall<T>(storage: Storage, endpoint: string, callerHeaders: Headers, x: Exchange<T>): (c: Call<T>)
    ensures c.url == BaseUrl + endpoint
    ensures c.headers == RequestHeaders(storage, callerHeaders)
    // 204: null, whatever the body
    ensures x.Reply? && x.status == 204 ==> c.result == Ok(NoContent)
    // other non-ok statuses: the body's detail, or the generic message
    ensures x.Reply? && x.status != 204 && !IsOk(x.status) && x.body.Json? ==>
              c.result == Err(ErrorObject(if x.body.detail != "" then x.body.detail else GenericFailure))
    // ok statuses: the parsed body, unchanged
    ensures x.Reply? && x.status != 204 && IsOk(x.status) && x.body.Json? ==>
              c.result == Ok(Content(x.body.value))
    // an unreadable body or a failed transport: that very error
    ensures x.Reply? && x.status != 204 && x.body.NotJson? ==> c.result == Err(x.body.parseError)
    ensures x.TransportFailure? ==> c.result == Err(x.error)
    // one error toast per failure, carrying its message; none on success
    ensures c.result.Err? ==> c.toasts == [ErrorToast(MessageOf(c.result.error))]
    ensures c.result.Ok? ==> c.toasts == []
  {
    var result := Classify(x);
    var toasts := if result.Err? then [ErrorToast(MessageOf(result.error))] else [];
    Call(BaseUrl + endpoint, RequestHeaders(storage, callerHeaders), result, toasts)
  }

  /** A 204 answer never reads its body: two replies that differ only in
      their bodies give the same call. */
  lemma NoContentIgnoresBody<T>(storage: Storage, endpoint: string, h: Headers, b1: Body<T>, b2: Body<T>)
    ensures ApiCall(storage, endpoint, h, Reply(204, b1)) == ApiCall(storage, endpoint, h, Reply(204, b2))
  {
  }

  /** The bearer header is present exactly when a non-empty token is
      stored (and the caller sets none), and then it is "Bearer " followed
      by that token. */
  lemma BearerIffToken(storage: Storage, callerHeaders: Headers)
    requires "Authorization" !in callerHeaders
    ensures var h := RequestHeaders(storage, callerHeaders);
            && ("Authorization" in h <==> "token" in storage && storage["token"] != "")
            && ("Authorization" in h ==> h["Authorization"] == "Bearer " + storage["token"])
  {
  }

  // ---------------------------------------------------------------------
  // Login: form-encoded, no bearer header, no toast

  /** One call of the login helper: headers, the form fields in the order
      they are appended, and how the promise settled. */
  datatype LoginCall = LoginCall(url: string, headers: Headers, form: seq<(string, string)>,
                                 result: Result<TokenResponse, Thrown>, toasts: seq<Toast>)

  function LoginRequest(username: string, password: string, x: Exchange<TokenResponse>): (c: LoginCall)
    ensures c.url == BaseUrl + "/token"
    ensures c.headers == map["Content-Type" := FormContentType]
    ensures c.form == [("username", username), ("password", password)]
    ensures x.TransportFailure? ==> c.result == Err(x.error)
    ensures x.Reply? && x.body.NotJson? ==> c.result == Err(x.body.parseError)
    ensures x.Reply? && x.body.Json? && !IsOk(x.status) ==>
              c.result == Err(ErrorObject(if x.body.detail != "" then x.body.detail else LoginFailure))
    ensures x.Reply? && x.body.Json? && IsOk(x.status) ==> c.result == Ok(x.body.value)
    ensures c.toasts == []
  {
    var result :=
      match x
      case TransportFailure(e) => Err(e)
      case Reply(status, body) =>
        match body
        case NotJson(e) => Err(e)
        case Json(v, detail) =>
          if !IsOk(status) then Err(ErrorObject(OrElse(detail, LoginFailure))) else Ok(v);
    LoginCall(BaseUrl + "/token", map["Content-Type" := FormContentType],
              [("username", username), ("password", password)], result, [])
  }

  // ---------------------------------------------------------------------
  // Endpoints

  datatype Method = Get | Post | Delete

  /** The JSON body a call sends, before `JSON.stringify`. */
  datatype Payload =
    | NoPayload
    | Credentials(username: string, password: string)
    | NamePayload(name: string)
    | DraftPayload(draft: Draft)

  /** The calls the client makes through `api`. Summary dates are the
      optional `yyyy-MM-dd` strings the caller passes. */
  datatype Operation =
    | Register(username: string, password: string)
    | GetCategories
    | CreateCategory(name: string)
    | GetExpenses
    | CreateExpense(draft: Draft)
    | DeleteExpense(id: int)
    | GetIncomeCategories
    | CreateIncomeCategory(name: string)
    | GetIncome
    | CreateIncome(draft: Draft)
    | DeleteIncome(id: int)
    | IncomeExpensesSummary(startDate: Option<string>, endDate: Option<string>)
    | ExpensesByCategory(startDate: Option<string>, endDate: Option<string>)

  /** One `key=value` pair of a query, the value passed through the form
      encoding `encode`. The keys used here are letters and underscores,
      which the encoding leaves alone. */
  function Param(key: string, value: string, encode: string -> string): string
  {
    key + "=" + encode(value)
  }

  /** `URLSearchParams.toString()`: the pairs in order, joined by `&`. */
  function QueryString(params: seq<(string, string)>, encode: string -> string): string
  {
    if params == [] then ""
    else if |params| == 1 then Param(params[0].0, params[0].1, encode)
    else Param(params[0].0, params[0].1, encode) + "&" + QueryString(params[1..], encode)
  }

  /** The query a summary call appends to its path: nothing when neither
      date is given, else `?` and the given dates, start first. */
  function DateRangeQuery(startDate: Option<string>, endDate: Option<string>, encode: string -> string): (q: string)
    ensures q == "" <==> !Truthy(startDate) && !Truthy(endDate)
  {
    if Truthy(startDate) || Truthy(endDate) then
      var params :=
        (if Truthy(startDate) then [("start_date", startDate.value)] else [])
        + (if Truthy(endDate) then [("end_date", endDate.value)] else []);
      "?" + QueryString(params, encode)
    else ""
  }

  /** Each non-empty date appears once under its own key, start first. */
  lemma DateRangeQueryShapes(startDate: Option<string>, endDate: Option<string>, encode: string -> string)
    ensures var q := DateRangeQuery(startDate, endDate, encode);
            Truthy(startDate) && Truthy(endDate) ==>
              q == "?" + (Param("start_date", startDate.value, encode) + "&"
                          + Param("end_date", endDate.value, encode))
    ensures var q := DateRangeQuery(startDate, endDate, encode);
            Truthy(startDate) && !Truthy(endDate) ==> q == "?" + Param("start_date", startDate.value, encode)
    ensures var q := DateRangeQuery(startDate, endDate, encode);
            !Truthy(startDate) && Truthy(endDate) ==> q == "?" + Param("end_date", endDate.value, encode)
  {
    if Truthy(startDate) && Truthy(endDate) {
      var params := [("start_date", startDate.value), ("end_date", endDate.value)];
      assert [("start_date", startDate.value)] + [("end_date", endDate.value)] == params;
      assert params[1..] == [("end_date", endDate.value)];
      assert QueryString(params[1..], encode) == Param("end_date", endDate.value, encode);
      assert QueryString(params, encode)
        == Param("start_date", startDate.value, encode) + "&" + QueryString(params[1..], encode);
      assert DateRangeQuery(startDate, endDate, encode) == "?" + QueryString(params, encode);
    }
  }

  /** The path each operation requests; every one is absolute. */
  function Endpoint(op: Operation, encode: string -> string): (p: string)
    ensures p != [] && p[0] == '/'
  {
    match op
    case Register(_, _) => "/users"
    case GetCategories => "/categories"
    case CreateCategory(_) => "/categories"
    case GetExpenses => "/expenses"
    case CreateExpense(_) => "/expenses"
    case DeleteExpense(id) => "/expenses/" + Text.IntToString(id)
    case GetIncomeCategories => "/income-categories"
    case CreateIncomeCategory(_) => "/income-categories"
    case GetIncome => "/income"
    case CreateIncome(_) => "/income"
    case DeleteIncome(id) => "/income/" + Text.IntToString(id)
    case IncomeExpensesSummary(s, e) => "/summary/income-expenses" + DateRangeQuery(s, e, encode)
    case ExpensesByCategory(s, e) => "/summary/expenses-by-category" + DateRangeQuery(s, e, encode)
  }

  /** The `method` option each call passes; `api` defaults it to GET. */
  function MethodOf(op: Operation): (m: Method)
    ensures m == Delete <==> op.DeleteExpense? || op.DeleteIncome?
    ensures m == Post <==> op.Register? || op.CreateCategory? || op.CreateIncomeCategory?
                           || op.CreateExpense? || op.CreateIncome?
  {
    match op
    case Register(_, _) => Post
    case CreateCategory(_) => Post
    case CreateExpense(_) => Post
    case CreateIncomeCategory(_) => Post
    case CreateIncome(_) => Post
    case DeleteExpense(_) => Delete
    case DeleteIncome(_) => Delete
    case _ => Get
  }

  /** The `body` option each call passes, before `JSON.stringify`. */
  function PayloadOf(op: Operation): (p: Payload)
    ensures op.Register? ==> p == Credentials(op.username, op.password)
    ensures op.CreateCategory? || op.CreateIncomeCategory? ==> p == NamePayload(op.name)
    ensures op.CreateExpense? || op.CreateIncome? ==> p == DraftPayload(op.draft)
  {
    match op
    case Register(u, p) => Credentials(u, p)
    case CreateCategory(n) => NamePayload(n)
    case CreateIncomeCategory(n) => NamePayload(n)
    case CreateExpense(d) => DraftPayload(d)
    case CreateIncome(d) => DraftPayload(d)
    case _ => NoPayload
  }

  /** Only the POST calls send a body: GET and DELETE send none. */
  lemma BodyOnlyOnPost(op: Operation)
    ensures PayloadOf(op) != NoPayload <==> MethodOf(op) == Post
  {
  }

  /** Each create posts its record to its collection's path; each delete
      is a DELETE without a body. */
  lemma CreatesPostToTheirCollection(d: Draft, name: string, id: int, encode: string -> string)
    ensures MethodOf(CreateExpense(d)) == Post && PayloadOf(CreateExpense(d)) == DraftPayload(d)
            && Endpoint(CreateExpense(d), encode) == "/expenses"
    ensures MethodOf(CreateIncome(d)) == Post && PayloadOf(CreateIncome(d)) == DraftPayload(d)
            && Endpoint(CreateIncome(d), encode) == "/income"
    ensures MethodOf(CreateCategory(name)) == Post && PayloadOf(CreateCategory(name)) == NamePayload(name)
            && Endpoint(CreateCategory(name), encode) == "/categories"
    ensures MethodOf(CreateIncomeCategory(name)) == Post && PayloadOf(CreateIncomeCategory(name)) == NamePayload(name)
            && Endpoint(CreateIncomeCategory(name), encode) == "/income-categories"
    ensures MethodOf(DeleteExpense(id)) == Delete && PayloadOf(DeleteExpense(id)) == NoPayload
    ensures MethodOf(DeleteIncome(id)) == Delete && PayloadOf(DeleteIncome(id)) == NoPayload
  {
  }

  /** An id appended to a prefix can be read back from behind it. */
  lemma IdAfterPrefix(prefix: string, id: int)
    ensures var p := prefix + Text.IntToString(id);
            && |p| > |prefix| && p[..|prefix|] == prefix
            && Text.ParseInt(p[|prefix|..]) == Some(id)
  {
    var s := Text.IntToString(id);
    assert (prefix + s)[|prefix|..] == s;
    assert (prefix + s)[..|prefix|] == prefix;
    Text.ParseIntOfIntToString(id);
  }

  /** A delete path names the record's id so that the backend can read it
      back: the segment after the collection prefix parses to the id. */
  lemma DeletePathNamesId(id: int, encode: string -> string)
    ensures var p := Endpoint(DeleteExpense(id), encode);
            && |p| > |"/expenses/"| && p[..|"/expenses/"|] == "/expenses/"
            && Text.ParseInt(p[|"/expenses/"|..]) == Some(id)
    ensures var p := Endpoint(DeleteIncome(id), encode);
            && |p| > |"/income/"| && p[..|"/income/"|] == "/income/"
            && Text.ParseInt(p[|"/income/"|..]) == Some(id)
  {
    assert Endpoint(DeleteExpense(id), encode) == "/expenses/" + Text.IntToString(id);
    IdAfterPrefix("/expenses/", id);
    assert Endpoint(DeleteIncome(id), encode) == "/income/" + Text.IntToString(id);
    IdAfterPrefix("/income/", id);
  }

  /** The two summary calls append the same query for the same dates. */
  lemma SummaryQueriesAgree(s: Option<string>, e: Option<string>, encode: string -> string)
    ensures var a := Endpoint(IncomeExpensesSummary(s, e), encode);
            var b := Endpoint(ExpensesByCategory(s, e), encode);
            a[|"/summary/income-expenses"|..] == b[|"/summary/expenses-by-category"|..]
  {
    var q := DateRangeQuery(s, e, encode);
    var a := "/summary/income-expenses";
    var b := "/summary/expenses-by-category";
    assert Endpoint(IncomeExpensesSummary(s, e), encode) == a + q;
    assert Endpoint(ExpensesByCategory(s, e), encode) == b + q;
    assert (a + q)[|a|..] == q;
    assert (b + q)[|b|..] == q;
  }

  /** Without dates, both summary calls request their bare paths. */
  lemma SummaryPathsWithoutDates(s: Option<string>, e: Option<string>, encode: string -> string)
    requires !Truthy(s) && !Truthy(e)
    ensures Endpoint(IncomeExpensesSummary(s, e), encode) == "/summary/income-expenses"
    ensures Endpoint(ExpensesByCategory(s, e), encode) == "/summary/expenses-by-category"
  {
    assert DateRangeQuery(s, e, encode) == "";
    assert "/summary/income-expenses" + "" == "/summary/income-expenses";
    assert "/summary/expenses-by-category" + "" == "/summary/expenses-by-category";
  }

  /** A call of one operation through `api`: no caller headers, so only
      the JSON content type and the stored token's bearer header go out. */
  function Perform<T>(storage: Storage, op: Operation, encode: string -> string, x: Exchange<T>): (c: Call<T>)
    ensures c.url == BaseUrl + Endpoint(op, encode)
    ensures c.headers.Keys <= {"Content-Type", "Authorization"}
    ensures "Content-Type" in c.headers && c.headers["Content-Type"] == JsonContentType
    ensures "Authorization" in c.headers <==> Truthy(GetItem(storage, "token"))
    ensures Truthy(GetItem(storage, "token")) ==>
              c.headers["Authorization"] == "Bearer " + GetItem(storage, "token").value
    ensures c.result.Err? ==> c.toasts == [ErrorToast(MessageOf(c.result.error))]
    ensures c.result.Ok? ==> c.toasts == []
  {
    ApiCall(storage, Endpoint(op, encode), map[], x)
  }
}

=== FILE: auth.dfy ===
/** The session provider: who is logged in, whether a session operation is
    in flight, and the two storage keys that carry the session across page
    loads. Each operation takes the state before it and the backend's answer,
    and gives the state after it together with the toasts it raised and how
    its promise settled. Navigation is left out. */
module Auth {
  import opened Js
  import Api

  const TokenKey := "token"
  const UsernameKey := "username"

  /** The provider's state: `user` holds the username of `{username}`. */
  datatype Session = Session(user: Option<string>, isLoading: bool, storage: Storage)

  /** A session operation's effect. */
  datatype Step = Step(session: Session, toasts: seq<Toast>, outcome: Completion)

  /** `isAuthenticated`: `!!user`. */
  predicate IsAuthenticated(s: Session)
  {
    s.user.Some?
  }

  /** The state before the restore effect has run. */
  function Initial(storage: Storage): (s: Session)
    ensures s.isLoading && !IsAuthenticated(s) && s.storage == storage
  {
    Session(None, true, storage)
  }

  /** The restore effect: a user is set only when both keys hold non-empty
      strings; storage is only read. */
  function Restore(s: Session): (r: Session)
    ensures r.storage == s.storage
    ensures !r.isLoading
    ensures Truthy(GetItem(s.storage, TokenKey)) && Truthy(GetItem(s.storage, UsernameKey)) ==>
              r.user == Some(s.storage[UsernameKey])
    ensures !(Truthy(GetItem(s.storage, TokenKey)) && Truthy(GetItem(s.storage, UsernameKey))) ==>
              r.user == s.user
  {
    var token := GetItem(s.storage, TokenKey);
    var username := GetItem(s.storage, UsernameKey);
    if Truthy(token) && Truthy(username) then s.(user := Some(username.value), isLoading := false)
    else s.(isLoading := false)
  }

  /** The provider as the page finds it once the restore effect has run. */
  function Mount(storage: Storage): Session
  {
    Restore(Initial(storage))
  }

  /** Mounting authenticates exactly when both keys hold non-empty strings,
      and then the user is the stored username. */
  lemma MountAuthenticatesIffBothKeys(storage: Storage)
    ensures var s := Mount(storage);
            && s.storage == storage && !s.isLoading
            && (IsAuthenticated(s) <==>
                  TokenKey in storage && storage[TokenKey] != ""
                  && UsernameKey in storage && storage[UsernameKey] != "")
            && (IsAuthenticated(s) ==> s.user.value == storage[UsernameKey])
  {
  }

  /** `login(username, password)`, given the backend's answer to the token
      request. */
  function Login(s: Session, username: string, password: string, x: Api.Exchange<Api.TokenResponse>): (r: Step)
    // success: both keys written, user set
    ensures Api.LoginRequest(username, password, x).result.Ok? ==>
              var token := Api.LoginRequest(username, password, x).result.value.accessToken;
              && r.session.storage == s.storage[TokenKey := token][UsernameKey := username]
              && r.session.user == Some(username)
              && r.toasts == [SuccessToast("Successfully logged in")]
              && r.outcome == Normal
    // failure: storage and user untouched, one toast, the error rethrown
    ensures Api.LoginRequest(username, password, x).result.Err? ==>
              && r.session.storage == s.storage
              && r.session.user == s.user
              && r.toasts == [ErrorToast("Failed to login. Please check your credentials.")]
              && r.outcome == Throws(Api.LoginRequest(username, password, x).result.error)
    ensures !r.session.isLoading
  {
    var call := Api.LoginRequest(username, password, x);
    match call.result
    case Ok(data) =>
      var storage := s.storage[TokenKey := data.accessToken][UsernameKey := username];
      Step(Session(Some(username), false, storage), call.toasts + [SuccessToast("Successfully logged in")], Normal)
    case Err(e) =>
      Step(s.(isLoading := false), call.toasts + [ErrorToast("Failed to login. Please check your credentials.")], Throws(e))
  }

  /** `register(username, password)`: one call through the request layer,
      whose own failure toast comes first; the session is never touched. */
  function Register(s: Session, username: string, password: string, encode: string -> string,
                    x: Api.Exchange<Api.User>): (r: Step)
    ensures r.session.user == s.user && r.session.storage == s.storage
    ensures !r.session.isLoading
    ensures var call := Api.Perform(s.storage, Api.Register(username, password), encode, x);
            && (call.result.Ok? ==>
                  r.outcome == Normal
                  && r.toasts == [SuccessToast("Registration successful. Please log in.")])
            && (call.result.Err? ==>
                  r.outcome == Throws(call.result.error)
                  && r.toasts == [ErrorToast(MessageOf(call.result.error)),
                                  ErrorToast("Registration failed. Username may already be taken.")])
  {
    var call := Api.Perform(s.storage, Api.Register(username, password), encode, x);
    match call.result
    case Ok(_) =>
      Step(s.(isLoading := false), call.toasts + [SuccessToast("Registration successful. Please log in.")], Normal)
    case Err(e) =>
      Step(s.(isLoading := false), call.toasts + [ErrorToast("Registration failed. Username may already be taken.")], Throws(e))
  }

  /** `logout()`: both keys removed and the user cleared, from any state. */
  function Logout(s: Session): (r: Step)
    ensures TokenKey !in r.session.storage && UsernameKey !in r.session.storage
    ensures forall k :: k != TokenKey && k != UsernameKey ==>
              (k in r.session.storage <==> k in s.storage)
              && (k in s.storage ==> r.session.storage[k] == s.storage[k])
    ensures !IsAuthenticated(r.session)
    ensures r.session.isLoading == s.isLoading
    ensures r.toasts == [SuccessToast("Successfully logged out")] && r.outcome == Normal
  {
    Step(s.(user := None, storage := s.storage - {TokenKey, UsernameKey}),
         [SuccessToast("Successfully logged out")], Normal)
  }

  /** Logging out a second time leaves the session as the first did. */
  lemma LogoutIdempotent(s: Session)
    ensures Logout(Logout(s).session).session == Logout(s).session
  {
  }

  /** A session survives a reload exactly when the login that made it
      stored a non-empty token and username. */
  lemma LoginSurvivesReload(s: Session, username: string, password: string, x: Api.Exchange<Api.TokenResponse>)
    requires Api.LoginRequest(username, password, x).result.Ok?
    ensures var token := Api.LoginRequest(username, password, x).result.value.accessToken;
            var reloaded := Mount(Login(s, username, password, x).session.storage);
            (IsAuthenticated(reloaded) <==> token != "" && username != "")
            && (IsAuthenticated(reloaded) ==> reloaded.user == Some(username))
  {
  }

  /** No session survives a reload after logout. */
  lemma LogoutSurvivesNoReload(s: Session)
    ensures !IsAuthenticated(Mount(Logout(s).session.storage))
  {
  }

  /** The first call after a successful login carries the token it just
      issued (when that token is non-empty). */
  lemma LoginThenCallCarriesToken(s: Session, username: string, password: string,
                                  x: Api.Exchange<Api.TokenResponse>, callerHeaders: Api.Headers)
    requires Api.LoginRequest(username, password, x).result.Ok?
    requires "Authorization" !in callerHeaders
    ensures var token := Api.LoginRequest(username, password, x).result.value.accessToken;
            var h := Api.RequestHeaders(Login(s, username, password, x).session.storage, callerHeaders);
            && ("Authorization" in h <==> token != "")
            && (token != "" ==> h["Authorization"] == "Bearer " + token)
  {
  }

  /** After logout no call carries a bearer header of its own. */
  lemma LogoutThenCallCarriesNoToken(s: Session, callerHeaders: Api.Headers)
    requires "Authorization" !in callerHeaders
    ensures "Authorization" !in Api.RequestHeaders(Logout(s).session.storage, callerHeaders)
  {
  }
}

=== FILE: auth_pages.dfy ===
/** The submit handlers of the login and sign-up pages: they check the
    fields, then call the session provider and swallow whatever it throws. */
module AuthPages {
  import opened Js
  import Api
  import Auth

  const FillAllFields := "Please fill in all fields"
  const PasswordsDiffer := "Passwords do not match"

  /** What a submit handler decides before any call: stop with a message,
      or call the provider with these credentials. */
  datatype Decision = Reject(message: string) | Proceed(username: string, password: string)

  /** The outcome of a page's submit: the provider's state and every toast
      raised. There is no failure case: the page catches the provider's. */
  datatype PageStep = PageStep(session: Auth.Session, toasts: seq<Toast>)

  /** The login page's check: both fields must be non-empty; they are passed
      on exactly as typed. */
  function LoginDecision(username: string, password: string): (d: Decision)
    ensures d.Proceed? <==> username != "" && password != ""
    ensures d.Proceed? ==> d.username == username && d.password == password
    ensures d.Reject? ==> d.message == FillAllFields
  {
    if username == "" || password == "" then Reject(FillAllFields) else Proceed(username, password)
  }

  /** The sign-up page's checks, empty fields first, then the confirmation. */
  function SignUpDecision(username: string, password: string, confirm: string): (d: Decision)
    ensures d.Proceed? <==> username != "" && password != "" && confirm != "" && password == confirm
    ensures (username == "" || password == "" || confirm == "") ==> d == Reject(FillAllFields)
    ensures username != "" && password != "" && confirm != "" && password != confirm ==>
              d == Reject(PasswordsDiffer)
    ensures d.Proceed? ==> d.username == username && d.password == password
  {
    if username == "" || password == "" || confirm == "" then Reject(FillAllFields)
    else if password != confirm then Reject(PasswordsDiffer)
    else Proceed(username, password)
  }

  /** The login page's submit. */
  function SubmitLogin(s: Auth.Session, username: string, password: string,
                       x: Api.Exchange<Api.TokenResponse>): (r: PageStep)
    ensures LoginDecision(username, password).Reject? ==> r == PageStep(s, [ErrorToast(FillAllFields)])
    ensures LoginDecision(username, password).Proceed? ==>
              var step := Auth.Login(s, username, password, x);
              r == PageStep(step.session, step.toasts)
  {
    match LoginDecision(username, password)
    case Reject(m) => PageStep(s, [ErrorToast(m)])
    case Proceed(u, p) =>
      var step := Auth.Login(s, u, p, x);
      PageStep(step.session, step.toasts)
  }

  /** The sign-up page's submit. */
  function SubmitSignUp(s: Auth.Session, username: string, password: string, confirm: string,
                        encode: string -> string, x: Api.Exchange<Api.User>): (r: PageStep)
    ensures SignUpDecision(username, password, confirm).Reject? ==>
              r == PageStep(s, [ErrorToast(SignUpDecision(username, password, confirm).message)])
    ensures SignUpDecision(username, password, confirm).Proceed? ==>
              var step := Auth.Register(s, username, password, encode, x);
              r == PageStep(step.session, step.toasts)
    ensures r.session.user == s.user && r.session.storage == s.storage
  {
    match SignUpDecision(username, password, confirm)
    case Reject(m) => PageStep(s, [ErrorToast(m)])
    case Proceed(u, p) =>
      var step := Auth.Register(s, u, p, encode, x);
      PageStep(step.session, step.toasts)
  }

  /** An empty field on the login page keeps the session as it was: the
      provider is not called. */
  lemma EmptyLoginFieldCallsNothing(s: Auth.Session, username: string, password: string,
                                    x: Api.Exchange<Api.TokenResponse>)
    requires username == "" || password == ""
    ensures SubmitLogin(s, username, password, x).session == s
  {
  }

  /** A failed login leaves the page with the session it had, apart from the
      cleared loading flag; the error goes no further. */
  lemma FailedLoginIsSwallowed(s: Auth.Session, username: string, password: string,
                               x: Api.Exchange<Api.TokenResponse>)
    requires username != "" && password != ""
    requires Api.LoginRequest(username, password, x).result.Err?
    ensures SubmitLogin(s, username, password, x).session == s.(isLoading := false)
  {
  }
}

=== FILE: calendar.dfy ===
/** Calendar arithmetic the charts rely on: `subMonths` from date-fns on
    proleptic Gregorian dates, and months counted as one integer. */
module Calendar {

  datatype CalendarDate = CalendarDate(year: int, month: int, day: int)

  predicate IsLeapYear(y: int)
  {
    (y % 4 == 0 && y % 100 != 0) || y % 400 == 0
  }

  function DaysInMonth(year: int, month: int): (n: int)
    requires 1 <= month <= 12
    ensures 28 <= n <= 31
  {
    if month == 2 then (if IsLeapYear(year) then 29 else 28)
    else if month == 4 || month == 6 || month == 9 || month == 11 then 30
    else 31
  }

  predicate Valid(d: CalendarDate)
  {
    1 <= d.month <= 12 && 1 <= d.day <= DaysInMonth(d.year, d.month)
  }

  /** Months since January of year 0: `year * 12 + month - 1`. */
  function MonthIndex(d: CalendarDate): int
  {
    d.year * 12 + d.month - 1
  }

  /** `subMonths(d, n)`: the same day `n` months earlier, clamped to the
      length of the month it lands in. */
  function SubMonths(d: CalendarDate, n: nat): (r: CalendarDate)
    requires Valid(d)
    ensures Valid(r)
    ensures MonthIndex(r) == MonthIndex(d) - n
    ensures r.day == if d.day <= DaysInMonth(r.year, r.month) then d.day else DaysInMonth(r.year, r.month)
  {
    var k := MonthIndex(d) - n;
    var year := k / 12;
    var month := k % 12 + 1;
    var last := DaysInMonth(year, month);
    CalendarDate(year, month, if d.day <= last then d.day else last)
  }

  /** Going back no months is the identity. */
  lemma SubMonthsZero(d: CalendarDate)
    requires Valid(d)
    ensures SubMonths(d, 0) == d
  {
  }

  /** The window both charts request: from five months before `today` up
      to `today`, six calendar months in all. */
  function SixMonthWindow(today: CalendarDate): (w: (CalendarDate, CalendarDate))
    requires Valid(today)
    ensures Valid(w.0) && w.1 == today
    ensures MonthIndex(w.1) - MonthIndex(w.0) == 5
    ensures w.0.day <= today.day
  {
    (SubMonths(today, 5), today)
  }
}

=== FILE: entry_form.dfy ===
/** What the expense and income forms share: the fields, adding a category
    from the dialog, and submitting a new record. Each step takes the
    backend's answer as input and says which request it sent, if any. */
module EntryForm {
  import opened Js
  import Api
  import Text

  const RequiredMissing := "Please fill in all required fields"
  const EmptyCategoryName := "Category name cannot be empty"

  /** A create form's fields. `categoryId` is the select's string value;
      `date` is the picked day, `None` standing for no date. */
  datatype Form = Form(amount: string, description: string, categoryId: string,
                       categories: seq<Api.Category>, date: Option<int>,
                       newCategoryName: string, isAddingCategory: bool, isLoading: bool)

  /** The form as it mounts on day `today`. */
  function Initial(today: int): (f: Form)
    ensures f.amount == "" && f.description == "" && f.categoryId == "" && f.categories == []
    ensures f.date == Some(today) && f.newCategoryName == "" && !f.isLoading && !f.isAddingCategory
  {
    Form("", "", "", [], Some(today), "", false, false)
  }

  /** An add-category step: the new form, the name sent to the backend (if
      a request was made) and the toasts raised here. */
  datatype AddStep = AddStep(form: Form, request: Option<string>, toasts: seq<Toast>)

  /** `handleAddCategory`, given the answer to the create request;
      `added` is the form's success message. */
  function AddCategory(f: Form, outcome: Result<Api.Category, Thrown>, added: string): (r: AddStep)
    ensures Text.Trim(f.newCategoryName) == "" ==>
              r == AddStep(f, None, [ErrorToast(EmptyCategoryName)])
    ensures Text.Trim(f.newCategoryName) != "" ==>
              r.request == Some(f.newCategoryName) && !r.form.isLoading
    ensures Text.Trim(f.newCategoryName) != "" && outcome.Ok? ==>
              && r.form == f.(categories := f.categories + [outcome.value],
                              categoryId := Text.IntToString(outcome.value.id),
                              newCategoryName := "", isAddingCategory := false, isLoading := false)
              && Text.ParseInt(r.form.categoryId) == Some(outcome.value.id)
              && r.toasts == [SuccessToast(added)]
    ensures Text.Trim(f.newCategoryName) != "" && outcome.Err? ==>
              r.form == f.(isLoading := false) && r.toasts == []
  {
    if Text.Trim(f.newCategoryName) == "" then AddStep(f, None, [ErrorToast(EmptyCategoryName)])
    else
      match outcome
      case Ok(c) =>
        Text.ParseIntOfIntToString(c.id);
        AddStep(f.(categories := f.categories + [c], categoryId := Text.IntToString(c.id),
                   newCategoryName := "", isAddingCategory := false, isLoading := false),
                Some(f.newCategoryName), [SuccessToast(added)])
      case Err(_) =>
        AddStep(f.(isLoading := false), Some(f.newCategoryName), [])
  }

  /** A name made only of whitespace is refused before any request. */
  lemma BlankNameSendsNothing(f: Form, outcome: Result<Api.Category, Thrown>, added: string)
    requires forall i :: 0 <= i < |f.newCategoryName| ==> Text.IsWhitespace(f.newCategoryName[i])
    ensures AddCategory(f, outcome, added).request == None
    ensures AddCategory(f, outcome, added).form == f
  {
    Text.TrimEmptyIffBlank(f.newCategoryName);
  }

  /** The submit check: an amount, a category and a date. */
  predicate Complete(f: Form)
  {
    f.amount != "" && f.categoryId != "" && f.date.Some?
  }

  /** A submit step: the new form, the record sent (if any), the toasts
      raised here and whether the parent was told a record was added. */
  datatype SubmitStep = SubmitStep(form: Form, request: Option<Api.Draft>, toasts: seq<Toast>, notified: bool)

  /** `handleSubmit`, given how the create request settled; `today` is the
      day `new Date()` gives when the fields reset. */
  function Submit(f: Form, outcome: Completion, today: int, added: string): (r: SubmitStep)
    ensures !Complete(f) ==> r == SubmitStep(f, None, [ErrorToast(RequiredMissing)], false)
    ensures Complete(f) ==>
              && r.request == Some(Api.Draft(f.amount, f.description, Text.ParseInt(f.categoryId), f.date.value))
              && !r.form.isLoading
              && r.form.categories == f.categories
    ensures Complete(f) && outcome.Normal? ==>
              && r.form == f.(amount := "", description := "", categoryId := "", date := Some(today),
                              isLoading := false)
              && r.toasts == [SuccessToast(added)] && r.notified
    ensures Complete(f) && outcome.Throws? ==>
              r.form == f.(isLoading := false) && r.toasts == [] && !r.notified
  {
    if !Complete(f) then SubmitStep(f, None, [ErrorToast(RequiredMissing)], false)
    else
      var draft := Api.Draft(f.amount, f.description, Text.ParseInt(f.categoryId), f.date.value);
      match outcome
      case Normal =>
        SubmitStep(f.(amount := "", description := "", categoryId := "", date := Some(today), isLoading := false),
                   Some(draft), [SuccessToast(added)], true)
      case Throws(_) =>
        SubmitStep(f.(isLoading := false), Some(draft), [], false)
  }

  /** A category just added from the dialog is the one the next submit
      sends, once an amount is typed. */
  lemma AddedCategoryIsSubmitted(f: Form, c: Api.Category, added: string,
                                 outcome: Completion, today: int, submitted: string)
    requires Text.Trim(f.newCategoryName) != "" && f.amount != "" && f.date.Some?
    ensures var g := AddCategory(f, Ok(c), added).form;
            Submit(g, outcome, today, submitted).request.Some?
            && Submit(g, outcome, today, submitted).request.value.categoryId == Some(c.id)
  {
    Text.ParseIntOfIntToString(c.id);
  }

  /** After a successful submit the form is incomplete again, so a second
      submit sends nothing until the fields are filled anew. */
  lemma SubmitClearsForm(f: Form, today: int, added: string, outcome: Completion, again: string)
    requires Complete(f)
    ensures var g := Submit(f, Normal, today, added).form;
            Submit(g, outcome, today, again).request == None
  {
  }
}

=== FILE: expense_chart.dfy ===
/** The income-and-expenses chart: it asks for the last six months of
    monthly totals and, when there are none, shows six zero months ending
    with the current one. Date formatting is a parameter: `monthLabel` stands for
    `format(date, "MMM yyyy")` and `parse` for `new Date(text)`, `None`
    standing for an invalid date. */
module SummaryChart {
  import opened Js
  import opened Calendar
  import Api

  /** One month of totals as the backend sends it: `date` is `yyyy-MM`. */
  datatype Bucket = Bucket(date: string, totalIncome: real, totalExpenses: real)
  /** One month of totals as the chart shows it. */
  datatype Point = Point(date: string, totalIncome: real, totalExpenses: real)

  datatype ChartState = ChartState(data: seq<Point>, isLoading: bool)

  const Months := 6

  function Initial(): (s: ChartState)
    ensures s.data == [] && s.isLoading
  {
    ChartState([], true)
  }

  /** The months the chart covers, oldest first: month `i` is `5 - i`
      months before `now`. */
  function PlaceholderMonth(now: CalendarDate, i: nat): CalendarDate
    requires Valid(now) && i < Months
  {
    SubMonths(now, Months - 1 - i)
  }

  /** The six months are consecutive, the last being the current month
      itself. */
  lemma PlaceholderMonthsConsecutive(now: CalendarDate)
    requires Valid(now)
    ensures forall i :: 0 <= i < Months ==> MonthIndex(PlaceholderMonth(now, i)) == MonthIndex(now) - 5 + i
    ensures forall i :: 0 <= i < Months - 1 ==>
              MonthIndex(PlaceholderMonth(now, i + 1)) == MonthIndex(PlaceholderMonth(now, i)) + 1
    ensures PlaceholderMonth(now, Months - 1) == now
    ensures SixMonthWindow(now).0 == PlaceholderMonth(now, 0)
    ensures SixMonthWindow(now).1 == PlaceholderMonth(now, Months - 1)
  {
    SubMonthsZero(now);
  }

  /** The zero placeholder as a sequence. */
  function Placeholder(now: CalendarDate, monthLabel: CalendarDate -> string): (p: seq<Point>)
    requires Valid(now)
    ensures |p| == Months
    ensures forall i :: 0 <= i < |p| ==> p[i].totalIncome == 0.0 && p[i].totalExpenses == 0.0
  {
    seq(Months, i requires 0 <= i < Months => Point(monthLabel(PlaceholderMonth(now, i)), 0.0, 0.0))
  }

  /** The effect's loop: for `i` from 0 to 5, `unshift` the zero entry for
      `i` months ago, so the oldest month ends up first. */
  method BuildPlaceholder(now: CalendarDate, monthLabel: CalendarDate -> string) returns (p: seq<Point>)
    requires Valid(now)
    ensures |p| == Months
    ensures forall i :: 0 <= i < Months ==>
              p[i] == Point(monthLabel(SubMonths(now, Months - 1 - i)), 0.0, 0.0)
    ensures p == Placeholder(now, monthLabel)
  {
    p := [];
    var i := 0;
    while i < Months
      invariant 0 <= i <= Months
      invariant |p| == i
      invariant forall j :: 0 <= j < i ==> p[j] == Point(monthLabel(SubMonths(now, i - 1 - j)), 0.0, 0.0)
    {
      p := [Point(monthLabel(SubMonths(now, i)), 0.0, 0.0)] + p;
      i := i + 1;
    }
    var q := Placeholder(now, monthLabel);
    forall j | 0 <= j < Months ensures p[j] == q[j] {
      assert q[j] == Point(monthLabel(PlaceholderMonth(now, j)), 0.0, 0.0);
      assert PlaceholderMonth(now, j) == SubMonths(now, Months - 1 - j);
    }
  }

  /** The placeholder effect: only once loading has finished and only over
      an empty chart. */
  function ApplyPlaceholder(s: ChartState, now: CalendarDate, monthLabel: CalendarDate -> string): (r: ChartState)
    requires Valid(now)
    ensures !s.isLoading && s.data == [] ==> r.data == Placeholder(now, monthLabel)
    ensures s.isLoading || s.data != [] ==> r == s
    ensures r.isLoading == s.isLoading
    ensures !r.isLoading ==> r.data != []
  {
    if !s.isLoading && |s.data| == 0 then s.(data := Placeholder(now, monthLabel)) else s
  }

  /** Running the effect again changes nothing: the placeholder is not
      regenerated. */
  lemma ApplyPlaceholderIdempotent(s: ChartState, now: CalendarDate, monthLabel: CalendarDate -> string)
    requires Valid(now)
    ensures ApplyPlaceholder(ApplyPlaceholder(s, now, monthLabel), now, monthLabel) == ApplyPlaceholder(s, now, monthLabel)
  {
  }

  /** The summary request: the six-month window, each end written by
      `isoDate` (`format(date, "yyyy-MM-dd")`). */
  function Request(today: CalendarDate, isoDate: CalendarDate -> string): (op: Api.Operation)
    requires Valid(today)
    ensures op.IncomeExpensesSummary?
    ensures op.startDate == Some(isoDate(SubMonths(today, 5))) && op.endDate == Some(isoDate(today))
  {
    var w := SixMonthWindow(today);
    Api.IncomeExpensesSummary(Some(isoDate(w.0)), Some(isoDate(w.1)))
  }

  /** With non-empty dates the summary path names both ends, start first. */
  lemma RequestPathNamesBothDates(today: CalendarDate, isoDate: CalendarDate -> string,
                                  encode: string -> string)
    requires Valid(today)
    requires isoDate(SubMonths(today, 5)) != "" && isoDate(today) != ""
    ensures Api.Endpoint(Request(today, isoDate), encode) ==
              "/summary/income-expenses"
              + ("?" + (Api.Param("start_date", isoDate(SubMonths(today, 5)), encode) + "&"
                        + Api.Param("end_date", isoDate(today), encode)))
  {
    Api.DateRangeQueryShapes(Some(isoDate(SubMonths(today, 5))), Some(isoDate(today)), encode);
  }

  /** The `map` over the answer: each `yyyy-MM` bucket becomes the
      monthLabel of the first of that month, and the totals are kept.
      `parse` is `None` for a date `new Date` cannot read, on which
      `format` throws; then the whole map throws, written `None`. */
  function FormatBuckets(buckets: seq<Bucket>, parse: string -> Option<CalendarDate>,
                         monthLabel: CalendarDate -> string): (r: Option<seq<Point>>)
    ensures r.Some? <==> forall i :: 0 <= i < |buckets| ==> parse(buckets[i].date + "-01").Some?
    ensures r.Some? ==> |r.value| == |buckets|
    ensures r.Some? ==> forall i :: 0 <= i < |buckets| ==>
              && r.value[i].date == monthLabel(parse(buckets[i].date + "-01").value)
              && r.value[i].totalIncome == buckets[i].totalIncome
              && r.value[i].totalExpenses == buckets[i].totalExpenses
    decreases |buckets|
  {
    if |buckets| == 0 then Some([])
    else
      var first := parse(buckets[0].date + "-01");
      var rest := FormatBuckets(buckets[1..], parse, monthLabel);
      assert forall i :: 1 <= i < |buckets| ==> buckets[1..][i - 1] == buckets[i];
      if first.None? || rest.None? then None
      else Some([Point(monthLabel(first.value), buckets[0].totalIncome, buckets[0].totalExpenses)] + rest.value)
  }

  /** `fetchData`, given the answer to the summary request: the formatted
      answer replaces the data, unless the request failed or a bucket's
      date could not be formatted; loading ends either way. */
  function Fetch(s: ChartState, answer: Result<seq<Bucket>, Thrown>, parse: string -> Option<CalendarDate>,
                 monthLabel: CalendarDate -> string): (r: ChartState)
    ensures !r.isLoading
    ensures answer.Err? ==> r.data == s.data
    ensures answer.Ok? && (exists i :: 0 <= i < |answer.value| && parse(answer.value[i].date + "-01").None?) ==>
              r.data == s.data
    ensures answer.Ok? && (forall i :: 0 <= i < |answer.value| ==> parse(answer.value[i].date + "-01").Some?) ==>
              && |r.data| == |answer.value|
              && forall i :: 0 <= i < |answer.value| ==>
                   r.data[i] == Point(monthLabel(parse(answer.value[i].date + "-01").value),
                                      answer.value[i].totalIncome, answer.value[i].totalExpenses)
  {
    match answer
    case Ok(buckets) =>
      (match FormatBuckets(buckets, parse, monthLabel)
       case Some(points) => ChartState(points, false)
       case None => s.(isLoading := false))
    case Err(_) => s.(isLoading := false)
  }

  /** An empty answer leaves an empty chart, so the placeholder shows. */
  lemma EmptyAnswerShowsPlaceholder(s: ChartState, now: CalendarDate, parse: string -> Option<CalendarDate>,
                                    monthLabel: CalendarDate -> string)
    requires Valid(now)
    ensures ApplyPlaceholder(Fetch(s, Ok([]), parse, monthLabel), now, monthLabel).data == Placeholder(now, monthLabel)
  {
  }

  /** A bucket whose date cannot be formatted leaves a chart that was
      still empty empty, so the placeholder shows instead of the answer. */
  lemma UnreadableBucketShowsPlaceholder(s: ChartState, buckets: seq<Bucket>, k: nat, now: CalendarDate,
                                         parse: string -> Option<CalendarDate>, monthLabel: CalendarDate -> string)
    requires Valid(now) && s.data == []
    requires k < |buckets| && parse(buckets[k].date + "-01").None?
    ensures ApplyPlaceholder(Fetch(s, Ok(buckets), parse, monthLabel), now, monthLabel).data == Placeholder(now, monthLabel)
  {
  }
}

=== FILE: expense_form.dfy ===
/** The add-expense form: the shared form steps with the expense messages,
    plus the first fetch of categories, which seeds four default categories
    for a user who has none. */
module ExpenseForm {
  import opened Js
  import Api
  import Text
  import EntryForm

  /** The defaults, created one after another in this order. */
  const DefaultCategories: seq<string> := ["Food & Dining", "Transportation", "Housing", "Entertainment"]
  const DefaultsCreated := "Default expense categories have been created"
  const CategoryAdded := "Category added successfully"
  const ExpenseAdded := "Expense added successfully"

  datatype State = State(form: EntryForm.Form, initializingDefaults: bool)

  function Initial(today: int): (s: State)
    ensures s.form == EntryForm.Initial(today) && !s.initializingDefaults
  {
    State(EntryForm.Initial(today), false)
  }

  /** A run of create requests: the names sent, in order, and either every
      created category or the first failure. */
  datatype Batch = Batch(sent: seq<string>, result: Result<seq<Api.Category>, Thrown>)

  /** The `for … of` loop that awaits `createCategory(name)` for each name in
      turn; `respond(k)` is the answer to the `k`-th request, and the first
      failure ends the loop. */
  function CreateInOrder(names: seq<string>, respond: nat -> Result<Api.Category, Thrown>, k: nat): (b: Batch)
    ensures names == [] ==> b == Batch([], Ok([]))
    ensures names != [] ==> 1 <= |b.sent| <= |names| && b.sent == names[..|b.sent|]
    ensures b.result.Ok? ==>
              && b.sent == names
              && |b.result.value| == |names|
              && forall j :: k <= j < k + |names| ==> respond(j) == Ok(b.result.value[j - k])
    ensures b.result.Err? ==>
              && respond(k + |b.sent| - 1) == Err(b.result.error)
              && forall j :: k <= j < k + |b.sent| - 1 ==> respond(j).Ok?
    decreases |names|
  {
    if names == [] then Batch([], Ok([]))
    else
      match respond(k)
      case Err(e) => Batch([names[0]], Err(e))
      case Ok(c) =>
        var rest := CreateInOrder(names[1..], respond, k + 1);
        var sent := [names[0]] + rest.sent;
        assert names == [names[0]] + names[1..];
        match rest.result
        case Ok(cs) => Batch(sent, Ok([c] + cs))
        case Err(e) => Batch(sent, Err(e))
  }

  /** The loop stops early exactly when some request fails. */
  lemma CreateInOrderFailsIffSomeFails(names: seq<string>, respond: nat -> Result<Api.Category, Thrown>, k: nat)
    ensures CreateInOrder(names, respond, k).result.Ok? <==>
              forall j :: k <= j < k + |names| ==> respond(j).Ok?
  {
    var b := CreateInOrder(names, respond, k);
    if b.result.Err? {
      var j := k + |b.sent| - 1;
      assert k <= j < k + |names| && !respond(j).Ok?;
    }
  }

  /** A fetch step: the new state, the default names requested and the
      toasts raised here. */
  datatype FetchStep = FetchStep(state: State, requests: seq<string>, toasts: seq<Toast>)

  /** `createDefaultCategories`. */
  function CreateDefaults(s: State, respond: nat -> Result<Api.Category, Thrown>): (r: FetchStep)
    ensures !r.state.initializingDefaults
    ensures 1 <= |r.requests| <= |DefaultCategories| && r.requests == DefaultCategories[..|r.requests|]
    ensures r.requests == CreateInOrder(DefaultCategories, respond, 0).sent
    ensures CreateInOrder(DefaultCategories, respond, 0).result.Err? ==>
              respond(|r.requests| - 1).Err? && forall j :: 0 <= j < |r.requests| - 1 ==> respond(j).Ok?
    ensures CreateInOrder(DefaultCategories, respond, 0).result.Ok? ==>
              var created := CreateInOrder(DefaultCategories, respond, 0).result.value;
              && r.requests == DefaultCategories
              && r.state.form == s.form.(categories := created, categoryId := Text.IntToString(created[0].id))
              && Text.ParseInt(r.state.form.categoryId) == Some(created[0].id)
              && r.toasts == [SuccessToast(DefaultsCreated)]
    ensures CreateInOrder(DefaultCategories, respond, 0).result.Err? ==>
              r.state.form == s.form && r.toasts == []
  {
    var batch := CreateInOrder(DefaultCategories, respond, 0);
    match batch.result
    case Ok(created) =>
      var form := s.form.(categories := created);
      var form := if |created| > 0 then
                    Text.ParseIntOfIntToString(created[0].id);
                    form.(categoryId := Text.IntToString(created[0].id))
                  else form;
      FetchStep(State(form, false), batch.sent, [SuccessToast(DefaultsCreated)])
    case Err(_) =>
      FetchStep(s.(initializingDefaults := false), batch.sent, [])
  }

  /** `fetchCategories`, given the answer to the list request and the
      answers to any default-creation requests that follow. */
  function FetchCategories(s: State, fetched: Result<seq<Api.Category>, Thrown>,
                           respond: nat -> Result<Api.Category, Thrown>): (r: FetchStep)
    ensures fetched.Err? ==> r == FetchStep(s, [], [])
    ensures fetched.Ok? && (|fetched.value| > 0 || s.initializingDefaults) ==>
              r == FetchStep(s.(form := s.form.(categories := fetched.value)), [], [])
    ensures fetched.Ok? && |fetched.value| == 0 && !s.initializingDefaults ==>
              r == CreateDefaults(State(s.form.(categories := []), true), respond)
  {
    match fetched
    case Err(_) => FetchStep(s, [], [])
    case Ok(data) =>
      var s' := s.(form := s.form.(categories := data));
      if |data| == 0 && !s.initializingDefaults then CreateDefaults(s'.(initializingDefaults := true), respond)
      else FetchStep(s', [], [])
  }

  /** A user with no categories who sees every default created ends up
      with the four defaults in order, the first one selected. */
  lemma EmptyListSeedsDefaults(s: State, respond: nat -> Result<Api.Category, Thrown>)
    requires !s.initializingDefaults
    requires forall i :: 0 <= i < 4 ==> respond(i).Ok?
    ensures var r := FetchCategories(s, Ok([]), respond);
            && r.requests == DefaultCategories
            && |r.state.form.categories| == 4
            && (forall j :: 0 <= j < 4 ==> respond(j) == Ok(r.state.form.categories[j]))
            && Text.ParseInt(r.state.form.categoryId) == Some(respond(0).value.id)
            && !r.state.initializingDefaults
  {
    CreateInOrderFailsIffSomeFails(DefaultCategories, respond, 0);
  }

  /** A failed default leaves the fetched (empty) list in place. */
  lemma FailedDefaultKeepsEmptyList(s: State, respond: nat -> Result<Api.Category, Thrown>, k: nat)
    requires !s.initializingDefaults
    requires k < 4 && respond(k).Err?
    ensures var r := FetchCategories(s, Ok([]), respond);
            r.state.form.categories == [] && !r.state.initializingDefaults
  {
    CreateInOrderFailsIffSomeFails(DefaultCategories, respond, 0);
  }

  /** `handleAddCategory` with the expense form's message; the defaults
      flag is left alone. */
  function AddCategory(s: State, outcome: Result<Api.Category, Thrown>): (r: (State, EntryForm.AddStep))
    ensures r.1 == EntryForm.AddCategory(s.form, outcome, CategoryAdded)
    ensures r.0.form == r.1.form && r.0.initializingDefaults == s.initializingDefaults
    ensures r.1.toasts != [] ==> r.1.toasts == [ErrorToast(EntryForm.EmptyCategoryName)]
                                 || r.1.toasts == [SuccessToast(CategoryAdded)]
  {
    var step := EntryForm.AddCategory(s.form, outcome, CategoryAdded);
    (s.(form := step.form), step)
  }

  /** `handleSubmit` with the expense form's message; the defaults flag is
      left alone. */
  function Submit(s: State, outcome: Completion, today: int): (r: (State, EntryForm.SubmitStep))
    ensures r.1 == EntryForm.Submit(s.form, outcome, today, ExpenseAdded)
    ensures r.0.form == r.1.form && r.0.initializingDefaults == s.initializingDefaults
    ensures r.1.toasts != [] ==> r.1.toasts == [ErrorToast(EntryForm.RequiredMissing)]
                                 || r.1.toasts == [SuccessToast(ExpenseAdded)]
  {
    var step := EntryForm.Submit(s.form, outcome, today, ExpenseAdded);
    (s.(form := step.form), step)
  }

  /** The call `handleAddCategory` makes, if any: `createCategory` of the
      name as typed, which posts it to `/categories`. */
  function AddCategoryCall(s: State, outcome: Result<Api.Category, Thrown>): (op: Option<Api.Operation>)
    ensures op.Some? <==> Text.Trim(s.form.newCategoryName) != ""
    ensures op.Some? ==> && op.value.CreateCategory?
                         && Api.MethodOf(op.value) == Api.Post
                         && Api.PayloadOf(op.value) == Api.NamePayload(s.form.newCategoryName)
  {
    match AddCategory(s, outcome).1.request
    case None => None
    case Some(name) => Some(Api.CreateCategory(name))
  }

  /** The call `handleSubmit` makes, if any: `createExpense` of the typed
      amount, the description, `parseInt` of the category and the date,
      posted to `/expenses`. */
  function SubmitCall(s: State, outcome: Completion, today: int): (op: Option<Api.Operation>)
    ensures op.Some? <==> EntryForm.Complete(s.form)
    ensures op.Some? ==> && op.value.CreateExpense?
                         && Api.MethodOf(op.value) == Api.Post
                         && Api.PayloadOf(op.value) ==
                              Api.DraftPayload(Api.Draft(s.form.amount, s.form.description,
                                                         Text.ParseInt(s.form.categoryId), s.form.date.value))
  {
    match Submit(s, outcome, today).1.request
    case None => None
    case Some(draft) => Some(Api.CreateExpense(draft))
  }
}

=== FILE: expense_list.dfy ===
/** The recent-expenses table: it joins each expense to its category's name,
    shows the rows newest first, and drops a row once its deletion succeeds.
    Dates are day numbers, so `new Date(b.date) - new Date(a.date)` becomes a
    comparison of integers; the sort is stable, as `Array.prototype.sort` is. */
module ExpenseList {
  import opened Js
  import Api

  const Unknown := "Unknown"
  const LoadFailed := "Failed to load expenses"
  const Deleted := "Expense deleted successfully"
  const DeleteFailed := "Failed to delete expense"

  /** An expense as the table shows it: the category id replaced by a name. */
  datatype Row = Row(id: int, amount: real, description: string, date: int, category: string)

  /** The component's state. `names` is the id-to-name map of the last
      category fetch; `pendingDelete` is the expense whose confirmation
      dialog is open. */
  datatype ListState = ListState(rows: seq<Row>, names: map<int, string>, isLoading: bool,
                                 pendingDelete: Option<int>)

  datatype ListStep = ListStep(state: ListState, toasts: seq<Toast>)

  function Initial(): (s: ListState)
    ensures s.rows == [] && s.names == map[] && s.isLoading && s.pendingDelete == None
  {
    ListState([], map[], true, None)
  }

  // ---------------------------------------------------------------------
  // Category names

  /** No later category in `cats` has the id of the one at `i`. */
  ghost predicate IsLastWithId(cats: seq<Api.Category>, i: int)
    requires 0 <= i < |cats|
  {
    forall j :: i < j < |cats| ==> cats[j].id != cats[i].id
  }

  /** The `forEach` that assigns `map[cat.id] = cat.name` for each category
      in turn. */
  function CategoryNames(cats: seq<Api.Category>): (m: map<int, string>)
    ensures m.Keys == set c | c in cats :: c.id
  {
    if cats == [] then map[]
    else
      var last := cats[|cats| - 1];
      var m := CategoryNames(cats[..|cats| - 1]);
      assert cats == cats[..|cats| - 1] + [last];
      m[last.id := last.name]
  }

  /** Each id names the last category in the list that carries it. */
  lemma {:induction false} CategoryNamesLastWins(cats: seq<Api.Category>, i: int)
    requires 0 <= i < |cats| && IsLastWithId(cats, i)
    ensures CategoryNames(cats)[cats[i].id] == cats[i].name
  {
    var n := |cats| - 1;
    if i < n {
      var init := cats[..n];
      assert cats[n].id != cats[i].id;
      assert IsLastWithId(init, i) by {
        forall j | i < j < |init| ensures init[j].id != init[i].id {
          assert init[j] == cats[j];
        }
      }
      CategoryNamesLastWins(init, i);
      assert init[i] == cats[i];
    }
  }

  /** `categoriesMap[expense.categoryId] || "Unknown"`. */
  function CategoryLabel(names: map<int, string>, categoryId: int): (shown: string)
    ensures shown != ""
    ensures categoryId in names && names[categoryId] != "" ==> shown == names[categoryId]
    ensures categoryId !in names || names[categoryId] == "" ==> shown == Unknown
  {
    if categoryId in names && names[categoryId] != "" then names[categoryId] else Unknown
  }

  function JoinRow(names: map<int, string>, e: Api.Expense): Row
  {
    Row(e.id, e.amount, e.description, e.date, CategoryLabel(names, e.categoryId))
  }

  /** The `map` from expenses to rows: one row per expense, in order, each
      keeping the expense's fields and labelled with its category. */
  function JoinRows(names: map<int, string>, expenses: seq<Api.Expense>): (rows: seq<Row>)
    ensures |rows| == |expenses|
    ensures forall i :: 0 <= i < |rows| ==>
              && rows[i].id == expenses[i].id
              && rows[i].amount == expenses[i].amount
              && rows[i].description == expenses[i].description
              && rows[i].date == expenses[i].date
              && rows[i].category == CategoryLabel(names, expenses[i].categoryId)
  {
    seq(|expenses|, i requires 0 <= i < |expenses| => JoinRow(names, expenses[i]))
  }

  // ---------------------------------------------------------------------
  // Newest first

  /** Dates never increase along the sequence. */
  ghost predicate NewestFirst(s: seq<Row>)
  {
    forall i, j :: 0 <= i < j < |s| ==> s[i].date >= s[j].date
  }

  /** The rows of `s` that fall on day `d`, in their order in `s`. */
  function OnDay(s: seq<Row>, d: int): seq<Row>
  {
    if s == [] then [] else (if s[0].date == d then [s[0]] else []) + OnDay(s[1..], d)
  }

  lemma {:induction false} OnDayAppend(a: seq<Row>, b: seq<Row>, d: int)
    ensures OnDay(a + b, d) == OnDay(a, d) + OnDay(b, d)
  {
    if a != [] {
      assert (a + b)[0] == a[0];
      assert (a + b)[1..] == a[1..] + b;
      OnDayAppend(a[1..], b, d);
      var head := if a[0].date == d then [a[0]] else [];
      calc {
        OnDay(a + b, d);
        head + OnDay(a[1..] + b, d);
        head + (OnDay(a[1..], d) + OnDay(b, d));
        (head + OnDay(a[1..], d)) + OnDay(b, d);
      }
    } else {
      assert a + b == b;
    }
  }

  lemma {:induction false} OnDayOfLater(s: seq<Row>, d: int)
    requires forall i :: 0 <= i < |s| ==> s[i].date < d
    ensures OnDay(s, d) == []
  {
    if s != [] {
      OnDayOfLater(s[1..], d);
    }
  }

  /** Places `x` after every row at least as new: the step of a stable
      insertion sort. */
  function Insert(x: Row, s: seq<Row>): (r: seq<Row>)
    ensures |r| == |s| + 1
  {
    if s == [] then [x]
    else if s[0].date >= x.date then [s[0]] + Insert(x, s[1..])
    else [x] + s
  }

  lemma {:induction false} InsertPermutes(x: Row, s: seq<Row>)
    ensures multiset(Insert(x, s)) == multiset(s) + multiset{x}
    ensures forall k :: 0 <= k < |Insert(x, s)| ==> Insert(x, s)[k] == x || Insert(x, s)[k] in s
  {
    if s != [] {
      assert s == [s[0]] + s[1..];
      if s[0].date >= x.date {
        InsertPermutes(x, s[1..]);
        var t := Insert(x, s[1..]);
        forall k | 0 <= k < |[s[0]] + t| ensures ([s[0]] + t)[k] == x || ([s[0]] + t)[k] in s {
          if k > 0 {
            assert ([s[0]] + t)[k] == t[k - 1];
          }
        }
      }
    }
  }

  /** A row no newer than the first of a newest-first sequence can go in
      front of it. */
  lemma ConsNewestFirst(h: Row, t: seq<Row>)
    requires NewestFirst(t)
    requires forall k :: 0 <= k < |t| ==> t[k].date <= h.date
    ensures NewestFirst([h] + t)
  {
    var r := [h] + t;
    forall i, j | 0 <= i < j < |r| ensures r[i].date >= r[j].date {
      assert r[j] == t[j - 1];
      if i > 0 {
        assert r[i] == t[i - 1];
      }
    }
  }

  /** Inserting keeps every row no newer than a bound that `x` and `s`
      respect. */
  lemma {:induction false} InsertBounded(x: Row, s: seq<Row>, bound: int)
    requires x.date <= bound
    requires forall k :: 0 <= k < |s| ==> s[k].date <= bound
    ensures forall k :: 0 <= k < |Insert(x, s)| ==> Insert(x, s)[k].date <= bound
  {
    if s != [] && s[0].date >= x.date {
      InsertBounded(x, s[1..], bound);
      var r := [s[0]] + Insert(x, s[1..]);
      assert Insert(x, s) == r;
      forall k | 0 <= k < |r| ensures r[k].date <= bound {
        if k > 0 {
          assert r[k] == Insert(x, s[1..])[k - 1];
        }
      }
    }
  }

  lemma {:induction false} InsertKeepsNewestFirst(x: Row, s: seq<Row>)
    requires NewestFirst(s)
    ensures NewestFirst(Insert(x, s))
  {
    if s != [] {
      NewestFirstTail(s);
      if s[0].date >= x.date {
        InsertKeepsNewestFirst(x, s[1..]);
        InsertBounded(x, s[1..], s[0].date);
        ConsNewestFirst(s[0], Insert(x, s[1..]));
      } else {
        ConsNewestFirst(x, s);
      }
    }
  }

  lemma NewestFirstTail(s: seq<Row>)
    requires s != [] && NewestFirst(s)
    ensures NewestFirst(s[1..])
    ensures forall i :: 0 <= i < |s| ==> s[i].date <= s[0].date
  {
    forall i, j | 0 <= i < j < |s[1..]| ensures s[1..][i].date >= s[1..][j].date {
      assert s[1..][i] == s[i + 1] && s[1..][j] == s[j + 1];
    }
  }

  /** The rows of `[x]` on day `d`. */
  function OnDayOne(x: Row, d: int): (r: seq<Row>)
    ensures OnDay([x], d) == r
  {
    assert [x][1..] == [];
    if x.date == d then [x] else []
  }

  lemma OnDayCons(x: Row, t: seq<Row>, d: int)
    ensures OnDay([x] + t, d) == OnDayOne(x, d) + OnDay(t, d)
  {
    assert ([x] + t)[0] == x;
    assert ([x] + t)[1..] == t;
  }

  /** Putting the same row in front of two sequences keeps a relation
      between their rows on day `d`. */
  lemma OnDayConsBoth(h: Row, t: seq<Row>, u: seq<Row>, extra: seq<Row>, d: int)
    requires OnDay(t, d) == OnDay(u, d) + extra
    ensures OnDay([h] + t, d) == OnDay([h] + u, d) + extra
  {
    OnDayCons(h, t, d);
    OnDayCons(h, u, d);
  }

  /** Inserting in front of rows that are all older: none of them share
      `x`'s day. */
  lemma InsertOnDayInFront(x: Row, s: seq<Row>, d: int)
    requires s != [] && s[0].date < x.date
    requires forall i :: 0 <= i < |s| ==> s[i].date <= s[0].date
    ensures OnDay(Insert(x, s), d) == OnDay(s, d) + OnDayOne(x, d)
  {
    assert Insert(x, s) == [x] + s;
    OnDayCons(x, s, d);
    if x.date == d {
      OnDayOfLater(s, d);
    }
  }

  lemma {:induction false} InsertOnDay(x: Row, s: seq<Row>, d: int)
    requires NewestFirst(s)
    ensures OnDay(Insert(x, s), d) == OnDay(s, d) + OnDayOne(x, d)
  {
    if s == [] {
      assert Insert(x, s) == [x];
    } else {
      NewestFirstTail(s);
      if s[0].date >= x.date {
        InsertOnDay(x, s[1..], d);
        OnDayConsBoth(s[0], Insert(x, s[1..]), s[1..], OnDayOne(x, d), d);
        assert [s[0]] + s[1..] == s;
      } else {
        InsertOnDayInFront(x, s, d);
      }
    }
  }

  /** The table's sort: newest first, rows of the same day in their fetched
      order. */
  function SortNewestFirst(s: seq<Row>): (r: seq<Row>)
    ensures multiset(r) == multiset(s)
    ensures NewestFirst(r)
  {
    if s == [] then []
    else
      var n := |s| - 1;
      assert s == s[..n] + [s[n]];
      var sorted := SortNewestFirst(s[..n]);
      InsertKeepsNewestFirst(s[n], sorted);
      InsertPermutes(s[n], sorted);
      Insert(s[n], sorted)
  }

  /** The sort is stable: the rows of any one day keep their order. */
  lemma {:induction false} SortIsStable(s: seq<Row>, d: int)
    ensures OnDay(SortNewestFirst(s), d) == OnDay(s, d)
  {
    if s != [] {
      var n := |s| - 1;
      var init := s[..n];
      var sorted := SortNewestFirst(init);
      assert SortNewestFirst(s) == Insert(s[n], sorted);
      calc {
        OnDay(SortNewestFirst(s), d);
        { InsertOnDay(s[n], sorted, d); }
        OnDay(sorted, d) + OnDayOne(s[n], d);
        { SortIsStable(init, d); }
        OnDay(init, d) + OnDayOne(s[n], d);
        { OnDayAppend(init, [s[n]], d); }
        OnDay(init + [s[n]], d);
        { assert init + [s[n]] == s; }
        OnDay(s, d);
      }
    }
  }

  /** Stability on every day at once. */
  lemma SortIsStableEveryDay(s: seq<Row>)
    ensures forall d :: OnDay(SortNewestFirst(s), d) == OnDay(s, d)
  {
    forall d {
      SortIsStable(s, d);
    }
  }

  // ---------------------------------------------------------------------
  // Deleting

  /** `rows.filter(row => row.id !== id)`. */
  function WithoutId(rows: seq<Row>, id: int): (r: seq<Row>)
    ensures |r| <= |rows|
    ensures forall k :: 0 <= k < |r| ==> r[k].id != id && r[k] in rows
  {
    if rows == [] then []
    else (if rows[0].id == id then [] else [rows[0]]) + WithoutId(rows[1..], id)
  }

  /** The filter removes every copy of a row with that id and keeps every
      copy of each other row. */
  lemma {:induction false} WithoutIdCounts(rows: seq<Row>, id: int, x: Row)
    ensures multiset(WithoutId(rows, id))[x] == if x.id == id then 0 else multiset(rows)[x]
  {
    if rows != [] {
      var head := if rows[0].id == id then [] else [rows[0]];
      WithoutIdCounts(rows[1..], id, x);
      assert rows == [rows[0]] + rows[1..];
      assert multiset(rows) == multiset{rows[0]} + multiset(rows[1..]);
      assert multiset(WithoutId(rows, id)) == multiset(head) + multiset(WithoutId(rows[1..], id));
    }
  }

  /** The filter keeps relative order: it works piecewise on a split list. */
  lemma {:induction false} WithoutIdAppend(a: seq<Row>, b: seq<Row>, id: int)
    ensures WithoutId(a + b, id) == WithoutId(a, id) + WithoutId(b, id)
  {
    if a != [] {
      assert (a + b)[0] == a[0];
      assert (a + b)[1..] == a[1..] + b;
      WithoutIdAppend(a[1..], b, id);
      var head := if a[0].id == id then [] else [a[0]];
      calc {
        WithoutId(a + b, id);
        head + WithoutId(a[1..] + b, id);
        head + (WithoutId(a[1..], id) + WithoutId(b, id));
        (head + WithoutId(a[1..], id)) + WithoutId(b, id);
      }
    } else {
      assert a + b == b;
    }
  }

  /** Deleting twice is deleting once. */
  lemma {:induction false} WithoutIdIdempotent(rows: seq<Row>, id: int)
    ensures WithoutId(WithoutId(rows, id), id) == WithoutId(rows, id)
  {
    if rows != [] {
      WithoutIdIdempotent(rows[1..], id);
      if rows[0].id != id {
        var t := WithoutId(rows[1..], id);
        assert ([rows[0]] + t)[0] == rows[0];
        assert ([rows[0]] + t)[1..] == t;
      } else {
        assert WithoutId(rows, id) == WithoutId(rows[1..], id);
      }
    }
  }

  /** A delete keeps the table newest first. */
  lemma {:induction false} WithoutIdKeepsNewestFirst(rows: seq<Row>, id: int)
    requires NewestFirst(rows)
    ensures NewestFirst(WithoutId(rows, id))
  {
    if rows != [] {
      var tail := WithoutId(rows[1..], id);
      WithoutIdKeepsNewestFirst(rows[1..], id);
      forall k | 0 <= k < |tail| ensures rows[0].date >= tail[k].date {
        var j :| 0 <= j < |rows[1..]| && rows[1..][j] == tail[k];
        assert rows[j + 1] == tail[k];
      }
    }
  }

  // ---------------------------------------------------------------------
  // Transitions

  /** `fetchData`, given the answers to the category and expense requests;
      the expenses are requested only once the categories have arrived. */
  function Fetch(s: ListState, categories: Result<seq<Api.Category>, Thrown>,
                 expenses: Result<seq<Api.Expense>, Thrown>): (r: ListStep)
    ensures !r.state.isLoading && r.state.pendingDelete == s.pendingDelete
    ensures categories.Ok? ==> r.state.names == CategoryNames(categories.value)
    ensures categories.Err? ==> r.state.names == s.names
    ensures categories.Ok? && expenses.Ok? ==>
              && multiset(r.state.rows) == multiset(JoinRows(r.state.names, expenses.value))
              && NewestFirst(r.state.rows)
              && (forall d :: OnDay(r.state.rows, d) == OnDay(JoinRows(r.state.names, expenses.value), d))
              && r.toasts == []
    ensures categories.Err? || expenses.Err? ==>
              r.state.rows == s.rows && r.toasts == [ErrorToast(LoadFailed)]
  {
    match categories
    case Err(_) => ListStep(s.(isLoading := false), [ErrorToast(LoadFailed)])
    case Ok(cats) =>
      var names := CategoryNames(cats);
      match expenses
      case Err(_) => ListStep(s.(names := names, isLoading := false), [ErrorToast(LoadFailed)])
      case Ok(es) =>
        SortIsStableEveryDay(JoinRows(names, es));
        ListStep(s.(names := names, rows := SortNewestFirst(JoinRows(names, es)), isLoading := false), [])
  }

  /** The trash button opens the confirmation dialog for one expense;
      nothing else changes. */
  function AskDelete(s: ListState, id: int): (r: ListState)
    ensures r.pendingDelete == Some(id)
    ensures r.rows == s.rows && r.names == s.names && r.isLoading == s.isLoading
  {
    s.(pendingDelete := Some(id))
  }

  /** Closing the dialog without confirming (`onOpenChange(false)`) clears
      the pending expense; nothing else changes. */
  function CancelDelete(s: ListState): (r: ListState)
    ensures r.pendingDelete == None
    ensures r.rows == s.rows && r.names == s.names && r.isLoading == s.isLoading
  {
    s.(pendingDelete := None)
  }

  /** Opening the dialog and closing it again leaves a table with no
      pending delete exactly as it was. */
  lemma AskThenCancelRestores(s: ListState, id: int)
    requires s.pendingDelete == None
    ensures CancelDelete(AskDelete(s, id)) == s
  {
  }

  /** `handleDeleteExpense(id)`, given how the delete request settled. */
  function Delete(s: ListState, id: int, outcome: Completion): (r: ListStep)
    ensures r.state.pendingDelete == None
    ensures outcome.Normal? ==>
              r.state.rows == WithoutId(s.rows, id) && r.toasts == [SuccessToast(Deleted)]
    ensures outcome.Throws? ==> r.state.rows == s.rows && r.toasts == [ErrorToast(DeleteFailed)]
    ensures r.state.names == s.names && r.state.isLoading == s.isLoading
  {
    match outcome
    case Normal => ListStep(s.(rows := WithoutId(s.rows, id), pendingDelete := None), [SuccessToast(Deleted)])
    case Throws(_) => ListStep(s.(pendingDelete := None), [ErrorToast(DeleteFailed)])
  }

  /** A delete, whichever way it settles, keeps a newest-first table
      newest first. */
  lemma DeleteKeepsNewestFirst(s: ListState, id: int, outcome: Completion)
    requires NewestFirst(s.rows)
    ensures NewestFirst(Delete(s, id, outcome).state.rows)
  {
    if outcome.Normal? {
      WithoutIdKeepsNewestFirst(s.rows, id);
    }
  }

  /** Once the delete settles, the dialog leaves no trace: asking first and
      then deleting ends as the delete alone does. */
  lemma AskThenDeleteForgetsDialog(s: ListState, id: int, outcome: Completion)
    ensures Delete(AskDelete(s, id), id, outcome) == Delete(s, id, outcome)
  {
  }
}

=== FILE: income_form.dfy ===
/** The add-income form: the shared form steps with the income messages;
    its category fetch stores whatever arrives and seeds no defaults. */
module IncomeForm {
  import opened Js
  import Api
  import EntryForm
  import Text
  import ExpenseForm

  const CategoryAdded := "Income category added successfully"
  const IncomeAdded := "Income added successfully"

  /** `fetchCategories`: the fetched list replaces the held one as it is; a
      failure changes nothing. */
  function FetchCategories(f: EntryForm.Form, fetched: Result<seq<Api.Category>, Thrown>): (r: EntryForm.Form)
    ensures fetched.Ok? ==> r.categories == fetched.value
    ensures fetched.Err? ==> r == f
    ensures r.(categories := f.categories) == f
  {
    match fetched
    case Ok(data) => f.(categories := data)
    case Err(_) => f
  }

  /** `handleAddCategory` with the income form's message. */
  function AddCategory(f: EntryForm.Form, outcome: Result<Api.Category, Thrown>): (r: EntryForm.AddStep)
    ensures r == EntryForm.AddCategory(f, outcome, CategoryAdded)
    ensures r.toasts != [] ==> r.toasts == [ErrorToast(EntryForm.EmptyCategoryName)]
                               || r.toasts == [SuccessToast(CategoryAdded)]
  {
    EntryForm.AddCategory(f, outcome, CategoryAdded)
  }

  /** `handleSubmit` with the income form's message. */
  function Submit(f: EntryForm.Form, outcome: Completion, today: int): (r: EntryForm.SubmitStep)
    ensures r == EntryForm.Submit(f, outcome, today, IncomeAdded)
    ensures r.toasts != [] ==> r.toasts == [ErrorToast(EntryForm.RequiredMissing)]
                               || r.toasts == [SuccessToast(IncomeAdded)]
  {
    EntryForm.Submit(f, outcome, today, IncomeAdded)
  }

  /** An empty fetched list stays empty: the income form seeds nothing. */
  lemma EmptyFetchSeedsNothing(f: EntryForm.Form)
    ensures FetchCategories(f, Ok([])).categories == []
  {
  }

  /** The two create forms differ only in their messages: from the same
      fields and answers they send the same record and reach the same
      fields. */
  lemma FormsDifferOnlyInMessages(f: EntryForm.Form, defaults: bool, outcome: Completion, today: int)
    ensures var income := Submit(f, outcome, today);
            var expense := ExpenseForm.Submit(ExpenseForm.State(f, defaults), outcome, today).1;
            income.request == expense.request && income.form == expense.form
            && income.notified == expense.notified
            && |income.toasts| == |expense.toasts|
  {
  }

  /** The call `handleAddCategory` makes, if any: `createIncomeCategory` of
      the name as typed, which posts it to `/income-categories`. */
  function AddCategoryCall(f: EntryForm.Form, outcome: Result<Api.Category, Thrown>): (op: Option<Api.Operation>)
    ensures op.Some? <==> Text.Trim(f.newCategoryName) != ""
    ensures op.Some? ==> && op.value.CreateIncomeCategory?
                         && Api.MethodOf(op.value) == Api.Post
                         && Api.PayloadOf(op.value) == Api.NamePayload(f.newCategoryName)
  {
    match AddCategory(f, outcome).request
    case None => None
    case Some(name) => Some(Api.CreateIncomeCategory(name))
  }

  /** The call `handleSubmit` makes, if any: `createIncome` of the same
      record the expense form would send, posted to `/income`. */
  function SubmitCall(f: EntryForm.Form, outcome: Completion, today: int): (op: Option<Api.Operation>)
    ensures op.Some? <==> EntryForm.Complete(f)
    ensures op.Some? ==> && op.value.CreateIncome?
                         && Api.MethodOf(op.value) == Api.Post
                         && Api.PayloadOf(op.value) ==
                              Api.DraftPayload(Api.Draft(f.amount, f.description,
                                                         Text.ParseInt(f.categoryId), f.date.value))
  {
    match Submit(f, outcome, today).request
    case None => None
    case Some(draft) => Some(Api.CreateIncome(draft))
  }
}

=== FILE: js.dfy ===
/** The handful of JavaScript runtime notions the client relies on: thrown
    values, promise outcomes, toast notifications, string truthiness and the
    browser's key-value storage, all as plain values. */
module Js {

  datatype Option<+T> = None | Some(value: T)

  /** The outcome of an awaited promise that carries a value. */
  datatype Result<+T, +E> = Ok(value: T) | Err(error: E)

  /** The outcome of an awaited promise whose value is ignored. */
  datatype Completion = Normal | Throws(error: Thrown)

  /** A value that a rejected promise or a `throw` carries: an `Error` object
      with its message, or anything else. */
  datatype Thrown = ErrorObject(message: string) | OtherValue

  /** The text a catch block that reads `error.message` shows for a thrown
      value, with its fallback for values that are not `Error` objects. */
  function MessageOf(e: Thrown): string
  {
    match e
    case ErrorObject(m) => m
    case OtherValue => "An error occurred"
  }

  /** A notification raised with `toast.success` or `toast.error`. */
  datatype Toast = SuccessToast(text: string) | ErrorToast(text: string)

  /** The browser's `localStorage`: string keys to string values. */
  type Storage = map<string, string>

  /** `localStorage.getItem(key)`: the stored string, or null. */
  function GetItem(storage: Storage, key: string): (r: Option<string>)
    ensures r.Some? <==> key in storage
    ensures r.Some? ==> r.value == storage[key]
  {
    if key in storage then Some(storage[key]) else None
  }

  /** JavaScript truthiness of a string-or-null: neither null nor "". */
  predicate Truthy(v: Option<string>)
  {
    v.Some? && v.value != ""
  }

  /** `s || fallback` for a string `s`. */
  function OrElse(s: string, fallback: string): (r: string)
    ensures s != "" ==> r == s
    ensures s == "" ==> r == fallback
  {
    if s != "" then s else fallback
  }
}

=== FILE: pie_chart.dfy ===
/** The expenses-by-category pie: one slice per category total, coloured
    from a ten-colour palette in turn, with a single placeholder slice when
    there is nothing to show. */
module PieChart {
  import opened Js
  import opened Calendar
  import Api

  datatype CategoryTotal = CategoryTotal(categoryName: string, totalAmount: real)
  datatype Slice = Slice(name: string, value: real, color: string)

  datatype PieState = PieState(data: seq<CategoryTotal>, isLoading: bool)

  const Colors: seq<string> := [
    "#8B5CF6", "#EC4899", "#F97316", "#22C55E", "#0EA5E9",
    "#F59E0B", "#10B981", "#6366F1", "#EF4444", "#06B6D4"
  ]

  const NoExpenses := CategoryTotal("No expenses", 1.0)

  function Initial(): (s: PieState)
    ensures s.data == [] && s.isLoading
  {
    PieState([], true)
  }

  /** The palette holds ten different colours. */
  lemma ColorsDistinct()
    ensures |Colors| == 10
    ensures forall i, j :: 0 <= i < j < |Colors| ==> Colors[i] != Colors[j]
  {
  }

  /** The placeholder effect: one "No expenses" slice of weight 1, only once
      loading has finished and only over empty data. */
  function ApplyPlaceholder(s: PieState): (r: PieState)
    ensures !s.isLoading && s.data == [] ==> r.data == [NoExpenses]
    ensures s.isLoading || s.data != [] ==> r == s
    ensures r.isLoading == s.isLoading
  {
    if !s.isLoading && |s.data| == 0 then s.(data := [NoExpenses]) else s
  }

  lemma ApplyPlaceholderIdempotent(s: PieState)
    ensures ApplyPlaceholder(ApplyPlaceholder(s)) == ApplyPlaceholder(s)
  {
  }

  /** `formattedData`: the data in order, renamed, the slice at index `i`
      taking colour `i mod 10`. */
  function Slices(data: seq<CategoryTotal>): (r: seq<Slice>)
    ensures |r| == |data|
    ensures forall i :: 0 <= i < |data| ==>
              r[i].name == data[i].categoryName && r[i].value == data[i].totalAmount
              && r[i].color == Colors[i % |Colors|]
  {
    seq(|data|, i requires 0 <= i < |data| =>
      Slice(data[i].categoryName, data[i].totalAmount, Colors[i % |Colors|]))
  }

  /** Residues modulo ten: a step of ten keeps it, a shorter step changes
      it. */
  lemma ModTen(i: nat, j: nat)
    ensures (i + 10) % 10 == i % 10
    ensures i < j < i + 10 ==> i % 10 != j % 10
  {
  }

  /** Slices ten apart share a colour; slices fewer than ten apart never
      do. */
  lemma SliceColorsCycle(data: seq<CategoryTotal>)
    ensures var r := Slices(data);
            forall i :: 0 <= i && i + 10 < |r| ==> r[i].color == r[i + 10].color
    ensures var r := Slices(data);
            forall i, j :: 0 <= i < j < |r| && j - i < 10 ==> r[i].color != r[j].color
  {
    var r := Slices(data);
    forall i | 0 <= i && i + 10 < |r| ensures r[i].color == r[i + 10].color {
      ModTen(i, i);
    }
    forall i, j | 0 <= i < j < |r| && j - i < 10 ensures r[i].color != r[j].color {
      ModTen(i, j);
      ColorsDistinct();
    }
  }

  /** `fetchData`, given the answer to the by-category request: the answer
      is stored as it is. */
  function Fetch(s: PieState, answer: Result<seq<CategoryTotal>, Thrown>): (r: PieState)
    ensures !r.isLoading
    ensures answer.Ok? ==> r.data == answer.value
    ensures answer.Err? ==> r.data == s.data
  {
    match answer
    case Ok(data) => PieState(data, false)
    case Err(_) => s.(isLoading := false)
  }

  /** The by-category request: the six-month window, each end written
      by `isoDate` (`format(date, "yyyy-MM-dd")`). */
  function Request(today: CalendarDate, isoDate: CalendarDate -> string): (op: Api.Operation)
    requires Valid(today)
    ensures op.ExpensesByCategory?
    ensures op.startDate == Some(isoDate(SubMonths(today, 5))) && op.endDate == Some(isoDate(today))
  {
    var w := SixMonthWindow(today);
    Api.ExpensesByCategory(Some(isoDate(w.0)), Some(isoDate(w.1)))
  }

  /** After an empty answer and the effect, the pie shows exactly the one
      placeholder slice, in the first colour. */
  lemma EmptyAnswerShowsPlaceholder(s: PieState)
    ensures var r := Slices(ApplyPlaceholder(Fetch(s, Ok([]))).data);
            r == [Slice("No expenses", 1.0, "#8B5CF6")]
  {
    var r := Slices(ApplyPlaceholder(Fetch(s, Ok([]))).data);
    assert |r| == 1 && r[0] == Slice("No expenses", 1.0, Colors[0]);
  }
}

=== FILE: text.dfy ===
/** String operations of the JavaScript runtime that the client applies to
    form input and identifiers: `String.prototype.trim`, integer
    `toString()` and `parseInt`. */
module Text {
  import opened Js

  /** The characters `trim` and `parseInt` skip: ECMAScript WhiteSpace and
      LineTerminator code points. */
  predicate IsWhitespace(c: char)
  {
    || c == '\t' || c == '\n' || c == '\U{000B}' || c == '\U{000C}' || c == '\r'
    || c == ' ' || c == '\U{00A0}' || c == '\U{1680}'
    || ('\U{2000}' <= c <= '\U{200A}')
    || c == '\U{2028}' || c == '\U{2029}' || c == '\U{202F}' || c == '\U{205F}'
    || c == '\U{3000}' || c == '\U{FEFF}'
  }

  /** `s` with its leading whitespace removed. */
  function TrimStart(s: string): (r: string)
    ensures |r| <= |s| && r == s[|s| - |r|..]
    ensures forall i :: 0 <= i < |s| - |r| ==> IsWhitespace(s[i])
    ensures r != [] ==> !IsWhitespace(r[0])
  {
    if s != [] && IsWhitespace(s[0]) then TrimStart(s[1..]) else s
  }

  /** `s` with its trailing whitespace removed. */
  function TrimEnd(s: string): (r: string)
    ensures |r| <= |s| && r == s[..|r|]
    ensures forall i :: |r| <= i < |s| ==> IsWhitespace(s[i])
    ensures r != [] ==> !IsWhitespace(r[|r| - 1])
  {
    if s != [] && IsWhitespace(s[|s| - 1]) then TrimEnd(s[..|s| - 1]) else s
  }

  /** `s.trim()`. */
  function Trim(s: string): string
  {
    TrimEnd(TrimStart(s))
  }

  /** `s.trim()` is falsy exactly when every character of `s` is whitespace. */
  lemma TrimEmptyIffBlank(s: string)
    ensures Trim(s) == "" <==> forall i :: 0 <= i < |s| ==> IsWhitespace(s[i])
  {
  }

  predicate IsDigit(c: char)
  {
    '0' <= c <= '9'
  }

  predicate AllDigits(s: string)
  {
    forall i :: 0 <= i < |s| ==> IsDigit(s[i])
  }

  function DigitChar(d: nat): (c: char)
    requires d < 10
    ensures IsDigit(c)
  {
    (('0' as int) + d) as char
  }

  function DigitValue(c: char): (d: nat)
    requires IsDigit(c)
    ensures d < 10
  {
    c as int - '0' as int
  }

  /** The number a run of decimal digits denotes, most significant first. */
  function DigitsValue(s: string): nat
    requires AllDigits(s)
  {
    if s == [] then 0 else DigitsValue(s[..|s| - 1]) * 10 + DigitValue(s[|s| - 1])
  }

  /** `n.toString()` for a non-negative integer. */
  function NatToString(n: nat): (s: string)
    ensures s != [] && AllDigits(s)
  {
    if n < 10 then [DigitChar(n)] else NatToString(n / 10) + [DigitChar(n % 10)]
  }

  /** `toString()` writes no leading zero: only 0 itself starts with `0`. */
  lemma {:induction false} NatToStringCanonical(n: nat)
    ensures NatToString(n)[0] == '0' <==> n == 0
  {
    if n >= 10 {
      NatToStringCanonical(n / 10);
      assert NatToString(n)[0] == NatToString(n / 10)[0];
    }
  }

  /** `i.toString()` for an integer: a minus sign, then the digits of `|i|`. */
  function IntToString(i: int): (s: string)
    ensures s != []
    ensures i < 0 <==> s[0] == '-'
    ensures i >= 0 ==> AllDigits(s)
    ensures i < 0 ==> AllDigits(s[1..])
  {
    if i < 0 then "-" + NatToString(-i) else NatToString(i)
  }

  /** The length of the longest prefix of `s` made of decimal digits. */
  function DigitRun(s: string): (n: nat)
    ensures n <= |s| && AllDigits(s[..n])
    ensures n < |s| ==> !IsDigit(s[n])
  {
    if s != [] && IsDigit(s[0]) then 1 + DigitRun(s[1..]) else 0
  }

  /** `parseInt(s)` with no radix, for decimal input: leading whitespace is
      skipped, one sign is read, then the longest run of digits; no digits
      at all is NaN, here `None`. */
  function ParseInt(s: string): Option<int>
  {
    var t := TrimStart(s);
    var negative := t != [] && t[0] == '-';
    var u := if t != [] && (t[0] == '-' || t[0] == '+') then t[1..] else t;
    var n := DigitRun(u);
    var magnitude: int := if n == 0 then 0 else DigitsValue(u[..n]);
    if n == 0 then None
    else if negative then Some(-magnitude)
    else Some(magnitude)
  }

  lemma {:induction false} DigitsValueOfNatToString(n: nat)
    ensures DigitsValue(NatToString(n)) == n
  {
    var s := NatToString(n);
    if n >= 10 {
      var p := NatToString(n / 10);
      DigitsValueOfNatToString(n / 10);
      assert s[..|s| - 1] == p;
    }
  }

  lemma {:induction false} DigitRunOfAllDigits(s: string)
    requires AllDigits(s)
    ensures DigitRun(s) == |s|
  {
    if s != [] {
      DigitRunOfAllDigits(s[1..]);
    }
  }

  /** Reading back an integer's `toString()` with `parseInt` gives the
      integer: category ids survive the round trip through the form's
      string-valued select. */
  lemma ParseIntOfIntToString(i: int)
    ensures ParseInt(IntToString(i)) == Some(i)
  {
    var s := IntToString(i);
    assert !IsWhitespace(s[0]);
    assert TrimStart(s) == s;
    var digits := if i < 0 then s[1..] else s;
    DigitRunOfAllDigits(digits);
    assert digits[..|digits|] == digits;
    if i < 0 {
      assert digits == NatToString(-i);
      DigitsValueOfNatToString(-i);
    } else {
      DigitsValueOfNatToString(i);
    }
  }

  /** A string with no digit in it is NaN: `parseInt("")` and
      `parseInt("abc")` alike. */
  lemma ParseIntWithoutDigits(s: string)
    requires forall i :: 0 <= i < |s| ==> !IsDigit(s[i])
    ensures ParseInt(s) == None
  {
    var t := TrimStart(s);
    var u := if t != [] && (t[0] == '-' || t[0] == '+') then t[1..] else t;
    if u != [] {
      assert t[|t| - |u|] == u[0];
      assert s[|s| - |t| + |t| - |u|] == u[0];
    }
  }
}

=== FILE: theme.dfy ===
/** The theme provider: a light/dark theme and a blue/black colour scheme,
    each read once from storage (the theme falling back to the system
    preference) and mirrored into the root element's classes and storage
    whenever they change. Stored values are not checked when read, so the
    state holds whatever string was saved. */
module Theme {
  import opened Js

  const ThemeKey := "theme"
  const ColorSchemeKey := "colorScheme"
  const DarkClass := "dark"
  const BlackClass := "black-theme"

  datatype ThemeState = ThemeState(theme: string, colorScheme: string)

  /** The root element's class list and the storage the effect writes. */
  datatype Page = Page(classes: set<string>, storage: Storage)

  /** The initial theme: the saved one when non-empty, else what the
      system prefers. */
  function InitialTheme(storage: Storage, prefersDark: bool): (t: string)
    ensures t != ""
    ensures ThemeKey in storage && storage[ThemeKey] != "" ==> t == storage[ThemeKey]
    ensures !(ThemeKey in storage && storage[ThemeKey] != "") ==> (t == "dark" <==> prefersDark)
    ensures !(ThemeKey in storage && storage[ThemeKey] != "") ==> t == "dark" || t == "light"
  {
    var saved := GetItem(storage, ThemeKey);
    if Truthy(saved) then saved.value else if prefersDark then "dark" else "light"
  }

  /** The initial colour scheme: the saved one when non-empty, else blue. */
  function InitialColorScheme(storage: Storage): (c: string)
    ensures c != ""
    ensures ColorSchemeKey in storage && storage[ColorSchemeKey] != "" ==> c == storage[ColorSchemeKey]
    ensures !(ColorSchemeKey in storage && storage[ColorSchemeKey] != "") ==> c == "blue"
  {
    OrElse(if ColorSchemeKey in storage then storage[ColorSchemeKey] else "", "blue")
  }

  function Initial(storage: Storage, prefersDark: bool): ThemeState
  {
    ThemeState(InitialTheme(storage, prefersDark), InitialColorScheme(storage))
  }

  /** `toggleTheme`: light becomes dark, anything else becomes light. */
  function ToggleTheme(s: ThemeState): (r: ThemeState)
    ensures r.colorScheme == s.colorScheme
    ensures s.theme == "light" ==> r.theme == "dark"
    ensures s.theme != "light" ==> r.theme == "light"
  {
    s.(theme := if s.theme == "light" then "dark" else "light")
  }

  /** `toggleColorScheme`: blue becomes black, anything else becomes blue. */
  function ToggleColorScheme(s: ThemeState): (r: ThemeState)
    ensures r.theme == s.theme
    ensures s.colorScheme == "blue" ==> r.colorScheme == "black"
    ensures s.colorScheme != "blue" ==> r.colorScheme == "blue"
  {
    s.(colorScheme := if s.colorScheme == "blue" then "black" else "blue")
  }

  predicate KnownTheme(s: ThemeState)
  {
    (s.theme == "light" || s.theme == "dark") && (s.colorScheme == "blue" || s.colorScheme == "black")
  }

  /** On the two known values each toggle is its own inverse. */
  lemma TogglesAreInvolutions(s: ThemeState)
    requires KnownTheme(s)
    ensures ToggleTheme(ToggleTheme(s)) == s
    ensures ToggleColorScheme(ToggleColorScheme(s)) == s
    ensures KnownTheme(ToggleTheme(s)) && KnownTheme(ToggleColorScheme(s))
  {
  }

  /** An unrecognised saved value is normalised by the first toggle and
      from then on alternates like a known one. */
  lemma ToggleNormalisesUnknown(s: ThemeState)
    requires s.theme != "light" && s.theme != "dark"
    ensures ToggleTheme(s).theme == "light"
    ensures ToggleTheme(ToggleTheme(s)).theme == "dark"
  {
  }

  /** The root has the dark and black classes exactly as the state says, and
      storage holds the state. */
  predicate Mirrors(s: ThemeState, p: Page)
  {
    && (DarkClass in p.classes <==> s.theme == "dark")
    && (BlackClass in p.classes <==> s.colorScheme == "black")
    && ThemeKey in p.storage && p.storage[ThemeKey] == s.theme
    && ColorSchemeKey in p.storage && p.storage[ColorSchemeKey] == s.colorScheme
  }

  /** The effect that runs after every change of theme or colour scheme. */
  function Sync(s: ThemeState, p: Page): (r: Page)
    ensures Mirrors(s, r)
    ensures forall c :: c != DarkClass && c != BlackClass ==> (c in r.classes <==> c in p.classes)
    ensures forall k :: k != ThemeKey && k != ColorSchemeKey ==>
              (k in r.storage <==> k in p.storage) && (k in p.storage ==> r.storage[k] == p.storage[k])
  {
    var classes := if s.theme == "dark" then p.classes + {DarkClass} else p.classes - {DarkClass};
    var classes := if s.colorScheme == "black" then classes + {BlackClass} else classes - {BlackClass};
    Page(classes, p.storage[ThemeKey := s.theme][ColorSchemeKey := s.colorScheme])
  }

  /** A mirrored state survives a reload: reading back what the effect
      stored gives the same state, whatever the system prefers. */
  lemma SyncThenReloadRestores(s: ThemeState, p: Page, prefersDark: bool)
    requires s.theme != "" && s.colorScheme != ""
    ensures Initial(Sync(s, p).storage, prefersDark) == s
  {
  }

  /** Every state the provider reaches has non-empty values, so the reload
      property applies to it. */
  lemma ReachableStatesNonEmpty(storage: Storage, prefersDark: bool)
    ensures var s := Initial(storage, prefersDark);
            && s.theme != "" && s.colorScheme != ""
            && ToggleTheme(s).theme != "" && ToggleColorScheme(s).colorScheme != ""
  {
  }

  /** Syncing the same state twice is syncing once. */
  lemma SyncIdempotent(s: ThemeState, p: Page)
    ensures Sync(s, Sync(s, p)) == Sync(s, p)
  {
  }
}
